=== FILE: README.md ===
# Karigar: a verified model of the screen and request rules

Karigar connects customers with local service providers (plumbers,
electricians, cleaners and so on). The application is React screens over a
thin Express/Mongoose backend. This project models the deterministic rules
inside those screens and handlers as immutable Dafny values and pure
functions, and proves properties of them.

The modelled rules are:

- **Service-request lifecycle.** The provider accepts, rejects, reschedules,
  completes or cancels a booking. The model covers the reschedule check, the
  action buttons rendered for each status, and the booking-history view.
- **Weekly availability.** Time slots per day, day-off toggles and blocked
  date ranges.
- **Service catalogue.** Validation, add, update and delete.
- **Customer provider search.** The search filter and the category label
  derived from a category slug.
- **Provider profile editor.** The draft/commit logic.
- **Sign-in screens.** The field checks of the provider and customer
  screens, and the request the customer screen sends.
- **Backend guards.** The `protect` and `restrictTo` middleware.
- **User registration.** The `registerUser` handler.

## Layout

| file | module | contents |
|---|---|---|
| base.dfy | `Base` | `Option`, `Result`, the banner `Alert`, an order-preserving `Filter` and subsequences |
| jstext.dfy | `JsText` | the JavaScript string operations used: `trim` (ECMAScript white space), truthiness, ASCII case mapping, `includes`, `split`/`join`, string `<` |
| timeslots.dfy | `TimeSlots` | `parseInt`, `timeToMinutes`, the half-open overlap test `hasOverlap` |
| availability.dfy | `Availability` | the weekly schedule, its two invariants, slot and blocked-period handlers |
| catalogue.dfy | `Catalogue` | service validation, edit/save/delete |
| requests.dfy | `Requests` | `validateReschedule`, `applyAction`, the rendered gate, the history view |
| discovery.dfy | `Discovery` | `filteredProviders` and `formatCategoryLabel` |
| dashboard.dfy | `Dashboard` | the profile draft, `validate`, status toggle, cancel and submit |
| formrules.dfy | `FormRules` | the e-mail and phone patterns and the shared field messages |
| providerauth.dfy | `ProviderAuth` | the provider sign-in checks and the category option values |
| customerauth.dfy | `CustomerAuth` | the customer sign-in checks and the request a submission sends |
| authmiddleware.dfy | `AuthMiddleware` | `protect` and `restrictTo` |
| registration.dfy | `Registration` | `registerUser` over a user collection keyed by e-mail |

### Modelling choices

- **Time and ids.** `Date.now()`, `new Date()` and the parsed
  reschedule instant are parameters. The current instant is `now`. The
  parsed date is an `Option<LocalInstant>` holding the instant and its local
  hour, and `None` stands for an invalid date. Fresh ids are passed in as a
  `stamp`.
- **Numbers.** `Number()` on price and duration strings is an oracle
  `num: string -> Option<real>`, where `None` is `NaN`.
- **Libraries.** `jwt.verify` is an oracle from token to decoded payload.
  Password hashing is an oracle `hash`. The Mongo user collection is a
  `map` keyed by e-mail.
- **State updates.** A React state update is a new record value. Where a
  handler calls the same setter twice, the last value wins.
- **Lifecycle gate.** `applyAction` never looks at the current status, and
  neither does `Requests.Decide`. Which actions a provider can reach comes
  only from the buttons rendered per status and from the incoming list.
  That gate is `Requests.Offered`, and the lifecycle lemmas are stated for
  steps that pass through it.

## Model

| member | source | states |
|---|---|---|
| Base.Filter | frontend/src/service_provider/ServiceManagement.jsx:145 | `filter` keeps each element that passes as often as it occurs and drops every other one, in the original order |
| Base.FilterCharacterised | frontend/src/service_provider/ServiceManagement.jsx:145 | the contract of `Filter` determines its result: any order-preserving selection with those element counts is `Filter`'s |
| JsText.Trim | frontend/src/service_provider/ServiceManagement.jsx:109 | `trim()` keeps a contiguous piece of the input that starts and ends with a non-white-space character; every character dropped before or after it is white space |
| JsText.BlankIffAllWhiteSpace | frontend/src/service_provider/ServiceManagement.jsx:109 | `!s.trim()` holds exactly when every character is white space |
| JsText.JoinSplit | frontend/src/users/CustomerServiceDiscovery.jsx:152-155 | joining the pieces of a split with the same separator gives the string back |
| TimeSlots.WellFormedTimeMinutes | frontend/src/service_provider/ServiceManagement.jsx:190-194 | a 'HH:MM' time maps to 60·HH+MM |
| TimeSlots.ReadingExample | frontend/src/service_provider/ServiceManagement.jsx:190-194 | '10:00' is minute 600 |
| TimeSlots.TimeToMinutesOfParts | frontend/src/service_provider/ServiceManagement.jsx:190-194 | the hours are read before the first ':' and the minutes up to the next; the value is 60·hours + minutes when both parse and NaN otherwise |
| TimeSlots.ParseIntReadsLeadingDigits | frontend/src/service_provider/ServiceManagement.jsx:191 | `parseInt` reads the leading digits and ignores what follows them |
| TimeSlots.ParseIntReadsMinus | frontend/src/service_provider/ServiceManagement.jsx:191 | a leading '-' negates the digits read after it |
| TimeSlots.NoColonIsNaN | frontend/src/service_provider/ServiceManagement.jsx:190-194 | a time without ':' is NaN |
| TimeSlots.UnparsableTimes | frontend/src/service_provider/ServiceManagement.jsx:190-194 | '', '1030', 'ab:30' and '10:' are NaN |
| TimeSlots.ParseIntNaN | frontend/src/service_provider/ServiceManagement.jsx:191-193 | `parseInt` is NaN exactly when no digit follows the optional leading white space and sign |
| TimeSlots.HasOverlap | frontend/src/service_provider/ServiceManagement.jsx:196-207 | an unparsable new slot counts as overlapping; otherwise the new slot overlaps exactly when some parsable existing slot clashes with it |
| TimeSlots.HalfOpenClashIffSharedMinute | frontend/src/service_provider/ServiceManagement.jsx:203-205 | the half-open test clashes exactly when the two intervals share a minute |
| TimeSlots.HalfOpenClashSymmetric | frontend/src/service_provider/ServiceManagement.jsx:203-205 | the clash test is symmetric |
| TimeSlots.OneSlotOverlap | frontend/src/service_provider/ServiceManagement.jsx:196-207 | back-to-back slots do not overlap; nested or crossing slots do |
| TimeSlots.UnparsableSlotSkipped | frontend/src/service_provider/ServiceManagement.jsx:200-202 | an existing slot whose times do not parse is ignored |
| Availability.InitialWeek | frontend/src/service_provider/ServiceManagement.jsx:50-58 | the seven days are present; exactly Saturday and Sunday are off |
| Availability.InitialWeekInvariant | frontend/src/service_provider/ServiceManagement.jsx:50-58 | the initial schedule has no slots on days off, well-formed slots, and pairwise non-overlapping slots on each day |
| Availability.ToggleDayOff | frontend/src/service_provider/ServiceManagement.jsx:216-229 | only that day changes; its flag flips; switching it off clears its slots; switching it on keeps them |
| Availability.ToggleDayOffPreserves | frontend/src/service_provider/ServiceManagement.jsx:216-229 | toggling keeps the schedule invariant |
| Availability.ToggleTwiceClearsSlots | frontend/src/service_provider/ServiceManagement.jsx:216-229 | toggling twice restores the flag with an empty slot list; other days are untouched |
| Availability.ToggleOffDayTwice | frontend/src/service_provider/ServiceManagement.jsx:216-229 | toggling a day that is off twice gives the schedule back |
| Availability.AddSlot | frontend/src/service_provider/ServiceManagement.jsx:231-274 | rejections in order (missing time; unparsable or start ≥ end; day absent or off; overlap), success exactly when none applies, and then one slot appended to that day with everything else unchanged |
| Availability.NoOverlapMeansDisjoint | frontend/src/service_provider/ServiceManagement.jsx:254-257 | a slot accepted by the overlap check is disjoint from every slot of the day |
| Availability.AddSlotPreserves | frontend/src/service_provider/ServiceManagement.jsx:231-274 | adding a slot keeps the schedule invariant |
| Availability.DeleteSlot | frontend/src/service_provider/ServiceManagement.jsx:276-284 | only that day's list changes; it loses every slot with that id and keeps each other slot as often as it occurred, in order |
| Availability.DeleteSlotPreserves | frontend/src/service_provider/ServiceManagement.jsx:276-284 | deleting a slot keeps the schedule invariant |
| Availability.StoredReason | frontend/src/service_provider/ServiceManagement.jsx:311 | the stored reason is the trimmed reason, or 'Unavailable' when it is blank, and is never empty |
| Availability.AddBlocked | frontend/src/service_provider/ServiceManagement.jsx:293-316 | both dates are required; an end before the start is refused; otherwise the period is appended with an end not before its start |
| Availability.AddBlockedPreserves | frontend/src/service_provider/ServiceManagement.jsx:293-316 | every stored period has both dates, ordered, and a trimmed non-empty reason |
| Availability.DeleteBlocked | frontend/src/service_provider/ServiceManagement.jsx:318-320 | the periods with that id are removed; every other period stays as often as it occurred, in order |
| Availability.DeleteBlockedPreserves | frontend/src/service_provider/ServiceManagement.jsx:318-320 | deleting keeps every period well formed |
| Catalogue.NumberError | frontend/src/service_provider/ServiceManagement.jsx:112-119 | a price or duration has no message exactly when it is non-blank and a positive number |
| Catalogue.ValidateService | frontend/src/service_provider/ServiceManagement.jsx:107-123 | each field gets a message exactly when its check fails |
| Catalogue.ServiceValidIff | frontend/src/service_provider/ServiceManagement.jsx:107-123 | a service is valid exactly when name and description are non-blank, a category is chosen, and price and duration are positive numbers |
| Catalogue.ResetForm | frontend/src/service_provider/ServiceManagement.jsx:125-137 | the form, errors and banner go back to empty; the list is untouched |
| Catalogue.EditService | frontend/src/service_provider/ServiceManagement.jsx:139-142 | the form holds the chosen service |
| Catalogue.UpdateMatching | frontend/src/service_provider/ServiceManagement.jsx:165-167 | entries with the form's id take the form's content; others stay; length and ids are kept |
| Catalogue.SavedServices | frontend/src/service_provider/ServiceManagement.jsx:163-176 | an update keeps the length, gives every entry with the form's id the form's fields and keeps every other entry; an add appends one service with a fresh 'svc-' id |
| Catalogue.SaveAsWritten | frontend/src/service_provider/ServiceManagement.jsx:152-186 | as written: an invalid form only shows its errors; a valid one is saved and the form reset, and the reset clears the success banner just set |
| Catalogue.SaveAsWrittenLosesBanner | frontend/src/service_provider/ServiceManagement.jsx:163-177 | as written, a successful save leaves no banner at all |
| Catalogue.Save | frontend/src/service_provider/ServiceManagement.jsx:152-186 | corrected version, see "## Findings": an invalid form only shows its errors; a valid one is saved, the form is reset and then the success banner is set, so it shows |
| Catalogue.SaveDiffersOnlyInBanner | frontend/src/service_provider/ServiceManagement.jsx:163-177 | the corrected save and the one as written differ only in the banner |
| Catalogue.DeleteService | frontend/src/service_provider/ServiceManagement.jsx:144-150 | the services with that id go and every other service stays as often as it occurred, in order; the form is reset only when it was editing that id |
| Catalogue.EditThenSave | frontend/src/service_provider/ServiceManagement.jsx:139-176 | editing a listed service and saving valid content replaces exactly that entry |
| Catalogue.SaveKeepsIdsUnique | frontend/src/service_provider/ServiceManagement.jsx:163-176 | with a fresh stamp, saving keeps service ids unique |
| Catalogue.DeleteKeepsIdsUnique | frontend/src/service_provider/ServiceManagement.jsx:144-150 | deleting keeps service ids unique |
| Requests.ValidateReschedule | frontend/src/service_provider/ServiceRequestHistory.jsx:145-166 | a reschedule passes exactly when date and time are given, the date is valid, the instant is after now and its hour is within 9..21; otherwise the first failing check is reported: missing text, then an invalid date, then a past instant, then an hour outside 9..21 |
| Requests.WorkingHoursEdges | frontend/src/service_provider/ServiceRequestHistory.jsx:156-164 | on the parsed local hour, with date and time text present: an instant after now in hour 21 passes, one in hour 8 is outside working hours, and one equal to now is in the past |
| Requests.Transition | frontend/src/service_provider/ServiceRequestHistory.jsx:196-217 | each action sets its status and fields (a reject stores the trimmed reason); identity fields never change; no action yields 'requested' |
| Requests.ApplyToList | frontend/src/service_provider/ServiceRequestHistory.jsx:194-219 | matching requests are transformed; others are kept; length and order are preserved |
| Requests.Find | frontend/src/service_provider/ServiceRequestHistory.jsx:172 | `find` returns a request with the id exactly when one exists, and it is the first such entry of the list |
| Requests.Decide | frontend/src/service_provider/ServiceRequestHistory.jsx:168-235 | a missing type, id or request is ignored; once the request is found, a blank reject reason is refused with the reason message, a failing reschedule with that check's message, and otherwise the action is applied to the list with its success message |
| Requests.OpenModal | frontend/src/service_provider/ServiceRequestHistory.jsx:108-125 | the dialog opens for the action and id; a reschedule dialog starts from the request's date and time |
| Requests.CloseModal | frontend/src/service_provider/ServiceRequestHistory.jsx:127-132 | the dialog closes with empty fields and no error |
| Requests.ApplyAction | frontend/src/service_provider/ServiceRequestHistory.jsx:168-235 | ignored input changes nothing; a refusal only sets the dialog's error; success stores the new list, shows the action's success banner and closes the dialog |
| Requests.AcceptConfirms | frontend/src/service_provider/ServiceRequestHistory.jsx:168-235 | accepting a listed 'requested' request through its button confirms exactly that entry, shows 'Request accepted and confirmed.' and closes the dialog |
| Requests.BlankRejectChangesNothing | frontend/src/service_provider/ServiceRequestHistory.jsx:175-180 | a reject with an empty or white-space reason leaves the list unchanged |
| Requests.FailedRescheduleChangesNothing | frontend/src/service_provider/ServiceRequestHistory.jsx:182-184 | a reschedule failing its check leaves the list unchanged |
| Requests.Incoming | frontend/src/service_provider/ServiceRequestHistory.jsx:339 | the incoming list is the requested and confirmed requests, each as often as in the list, in order |
| Requests.Buttons | frontend/src/service_provider/ServiceRequestHistory.jsx:401-455 | 'requested' shows accept and reject, 'confirmed' complete and cancel, both show reschedule; completed and cancelled show nothing; no button twice |
| Requests.Offered | frontend/src/service_provider/ServiceRequestHistory.jsx:339-457 | a listed 'requested' entry offers accept, reject and reschedule; a listed 'confirmed' one offers complete, cancel and reschedule; completed and cancelled offer nothing |
| Requests.GatedTransitionFollowsLifecycle | frontend/src/service_provider/ServiceRequestHistory.jsx:197-216 | every offered action moves a request along requested → confirmed/cancelled, confirmed → confirmed/completed/cancelled |
| Requests.StepKeepsIds | frontend/src/service_provider/ServiceRequestHistory.jsx:194-219 | a step keeps the length and every id in place |
| Requests.GatedClickKeepsTerminal | frontend/src/service_provider/ServiceRequestHistory.jsx:339-457 | with unique ids, a click on a rendered button leaves completed and cancelled requests unchanged |
| Requests.TerminalStaysTerminal | frontend/src/service_provider/ServiceRequestHistory.jsx:339-457 | along any gated run, completed and cancelled requests never change again |
| Requests.NoReentryIntoRequested | frontend/src/service_provider/ServiceRequestHistory.jsx:194-219 | whatever actions run, gated or not, a request that has left 'requested' never returns to it |
| Requests.Bookings | frontend/src/service_provider/ServiceRequestHistory.jsx:92-95 | the bookings are every request that has left 'requested', each as often as in the list, in order |
| Requests.History | frontend/src/service_provider/ServiceRequestHistory.jsx:97-106 | the history holds exactly the bookings passing the status and date filters, each as often as in the list |
| Requests.HistoryView | frontend/src/service_provider/ServiceRequestHistory.jsx:92-106 | the history has no 'requested' entry, only the chosen status, and only dates within the set bounds; it contains every request meeting all three |
| Requests.HistoryKeepsOrder | frontend/src/service_provider/ServiceRequestHistory.jsx:92-106 | the history is a subsequence of the request list |
| Discovery.FilteredProviders | frontend/src/users/CustomerServiceDiscovery.jsx:179-206 | the providers passing every filter, each as often as it occurs in the list, in their original order; no other provider |
| Discovery.MatchesIff | frontend/src/users/CustomerServiceDiscovery.jsx:180-203 | a provider matches exactly when the chosen category is its own and the trimmed, lower-cased location and keyword queries occur in its lower-cased location and searched fields |
| Discovery.NoFiltersKeepAll | frontend/src/users/CustomerServiceDiscovery.jsx:179-206 | with every filter empty the whole list comes back |
| Discovery.CategoryIsExact | frontend/src/users/CustomerServiceDiscovery.jsx:181 | with a category chosen, every result has exactly that category |
| Discovery.LocationIff | frontend/src/users/CustomerServiceDiscovery.jsx:183-188 | the location filter passes exactly when the trimmed, lower-cased query occurs in the lower-cased location |
| Discovery.BlankLocationMatchesAll | frontend/src/users/CustomerServiceDiscovery.jsx:183-188 | a white-space-only location query matches every provider |
| Discovery.KeywordInOneField | frontend/src/users/CustomerServiceDiscovery.jsx:190-202 | a keyword found in any one searched field finds the provider |
| Discovery.TighterFiltersKeepFewer | frontend/src/users/CustomerServiceDiscovery.jsx:180-205 | switching a filter on never adds a provider, and the order is kept |
| Discovery.Direct | frontend/src/users/CustomerServiceDiscovery.jsx:150-156 | the one-pass label rewrite: '-' becomes ' ' and the character starting a word is upper-cased |
| Discovery.RenderSplit | frontend/src/users/CustomerServiceDiscovery.jsx:152-155 | split, capitalize and join equals the one-pass rewrite |
| Discovery.FormatCategoryLabel | frontend/src/users/CustomerServiceDiscovery.jsx:150-156 | '' for an empty slug; otherwise the same length, each '-' a space and each word's first character upper-cased |
| Dashboard.Set | frontend/src/service_provider/ServiceProviderDashboard.jsx:48-51 | one draft field takes the value and the others are unchanged |
| Dashboard.ClearError | frontend/src/service_provider/ServiceProviderDashboard.jsx:52-54 | only that field's message is blanked |
| Dashboard.Validate | frontend/src/service_provider/ServiceProviderDashboard.jsx:64-75 | each field has a message exactly when it is blank (category: empty) |
| Dashboard.ValidateIff | frontend/src/service_provider/ServiceProviderDashboard.jsx:64-75 | validation passes exactly when name, description, price, location and availability are non-blank and a category is chosen |
| Dashboard.PriceIsNotNumeric | frontend/src/service_provider/ServiceProviderDashboard.jsx:69 | any non-blank price passes, numeric or not |
| Dashboard.FieldChange | frontend/src/service_provider/ServiceProviderDashboard.jsx:46-55 | only that draft field changes; the committed profile and the other messages are untouched |
| Dashboard.ToggleStatus | frontend/src/service_provider/ServiceProviderDashboard.jsx:57-62 | 'active' becomes 'inactive', anything else 'active'; no other field changes |
| Dashboard.ToggleTwice | frontend/src/service_provider/ServiceProviderDashboard.jsx:57-62 | toggling twice restores the draft when its status is 'active' or 'inactive' |
| Dashboard.Cancel | frontend/src/service_provider/ServiceProviderDashboard.jsx:77-105 | the draft is the profile again, so there are no unsaved changes, and every message is cleared |
| Dashboard.EditThenCancel | frontend/src/service_provider/ServiceProviderDashboard.jsx:46-82 | edits followed by cancel leave the same page as cancel alone |
| Dashboard.Submit | frontend/src/service_provider/ServiceProviderDashboard.jsx:84-103 | an invalid draft leaves the profile unchanged; a valid one becomes the profile with the success message |
| Dashboard.EditShowsUnsavedChange | frontend/src/service_provider/ServiceProviderDashboard.jsx:105 | editing a field away from its committed value is an unsaved change |
| Dashboard.UnsavedIffFieldDiffers | frontend/src/service_provider/ServiceProviderDashboard.jsx:105 | there are unsaved changes exactly when some draft field differs from the committed profile |
| FormRules.EmailShape | frontend/src/service_provider/Auth.jsx:41 | a matching address has at least five characters, no white space and exactly one '@' |
| FormRules.NoAtNoEmail | frontend/src/service_provider/Auth.jsx:41 | an address without '@' never matches |
| FormRules.NoDotNoEmail | frontend/src/service_provider/Auth.jsx:41 | an address without '.' never matches |
| FormRules.EmailExamples | frontend/src/service_provider/Auth.jsx:41 | 'a@b.co' matches; 'abc' and 'a@b' do not |
| FormRules.EmailError | frontend/src/service_provider/Auth.jsx:45-46 | no message exactly when the address matches; otherwise 'required' for an empty one and 'valid email' for the rest |
| FormRules.PasswordError | frontend/src/service_provider/Auth.jsx:48-49 | no message exactly when the password has at least six characters |
| FormRules.PhoneError | frontend/src/service_provider/Auth.jsx:59-60 | no message exactly when the phone is ten to fifteen ASCII digits |
| FormRules.ConfirmError | frontend/src/service_provider/Auth.jsx:66-69 | no message exactly when the confirmation is non-empty and equals the password |
| FormRules.RequiredError | frontend/src/service_provider/Auth.jsx:57 | a message exactly when the field is blank after trimming |
| ProviderAuth.CommonErrors | frontend/src/service_provider/Auth.jsx:44-49 | both tabs check only the e-mail pattern and the password length |
| ProviderAuth.SignupErrors | frontend/src/service_provider/Auth.jsx:56-71 | sign-up adds a check for each of name, phone, business name, address, category, confirmation and terms |
| ProviderAuth.ValidateAsWritten | frontend/src/service_provider/Auth.jsx:39-75 | passes exactly when nothing is collected; on the login tab the shown errors are left as they were |
| ProviderAuth.Validate | frontend/src/service_provider/Auth.jsx:39-75 | corrected version, see "## Findings": the collected errors are shown on both tabs, and validation passes exactly when none are shown |
| ProviderAuth.ValidateAgreesOnOutcome | frontend/src/service_provider/Auth.jsx:52-74 | both versions agree on whether submission proceeds, and agree fully on sign-up |
| ProviderAuth.LoginValidIff | frontend/src/service_provider/Auth.jsx:41-54 | login passes exactly when the e-mail matches and the password has at least six characters |
| ProviderAuth.LoginIgnoresOtherFields | frontend/src/service_provider/Auth.jsx:51-54 | the login outcome depends on the e-mail and password alone |
| ProviderAuth.PhoneAcceptedIff | frontend/src/service_provider/Auth.jsx:42-60 | a phone is accepted exactly when it is ten to fifteen ASCII digits and nothing else |
| ProviderAuth.SignupValidIff | frontend/src/service_provider/Auth.jsx:44-74 | sign-up passes exactly when the e-mail, password, name, phone, business name, address, category, confirmation and terms all pass |
| ProviderAuth.ValidImpliesFormValid | frontend/src/service_provider/Auth.jsx:126-142 | whenever validation passes the submit button was enabled, on both tabs |
| ProviderAuth.FormValidDoesNotImplyValid | frontend/src/service_provider/Auth.jsx:126-129 | the converse fails: e-mail 'a@b' with password 'secret1' enables the button but fails validation |
| ProviderAuth.LoginRefusalIsSilent | frontend/src/service_provider/Auth.jsx:52-54 | as written, that login submission is refused from a clean screen and no message appears |
| ProviderAuth.LoginRefusalExplained | frontend/src/service_provider/Auth.jsx:46 | with the errors published, the same submission shows 'Please enter a valid email' |
| ProviderAuth.DashesNoWhiteSpace | frontend/src/service_provider/Auth.jsx:318 | an option value never contains white space |
| ProviderAuth.DashesIdentity | frontend/src/service_provider/Auth.jsx:318 | text without white space is unchanged by the replacement |
| ProviderAuth.DashesLower | frontend/src/service_provider/Auth.jsx:318 | lower-casing commutes with the white-space replacement |
| ProviderAuth.DashesRun | frontend/src/service_provider/Auth.jsx:318 | a whole run of white space becomes a single '-' |
| ProviderAuth.OptionValueShape | frontend/src/service_provider/Auth.jsx:318 | an option value has no white space, and a category without white space is only lower-cased |
| ProviderAuth.OptionValueOfWords | frontend/src/service_provider/Auth.jsx:318 | a label of words separated by single spaces becomes the lower-cased words joined by '-' |
| ProviderAuth.OptionValueAcRepair | frontend/src/service_provider/Auth.jsx:150-318 | 'AC Repair' becomes 'ac-repair' |
| ProviderAuth.OptionValueBeautySalon | frontend/src/service_provider/Auth.jsx:152-318 | 'Beauty & Salon' becomes 'beauty-&-salon', not 'beauty-salon' |
| CustomerAuth.CommonErrors | frontend/src/users/CustomerAuth.jsx:41-45 | both tabs apply the same e-mail pattern and six-character password rule |
| CustomerAuth.SignupErrors | frontend/src/users/CustomerAuth.jsx:47-57 | sign-up adds checks for name, phone, city, area, confirmation and terms |
| CustomerAuth.Validate | frontend/src/users/CustomerAuth.jsx:36-61 | the e-mail and password messages on both tabs; on login no other message; on sign-up a message for each of name, phone, city, area, confirmation and terms exactly when its check fails |
| CustomerAuth.SameCredentialRules | frontend/src/users/CustomerAuth.jsx:41-45 | the e-mail and password messages are the same on both tabs |
| CustomerAuth.LoginValidIff | frontend/src/users/CustomerAuth.jsx:36-61 | login passes exactly when the e-mail matches and the password has at least six characters |
| CustomerAuth.SignupValidIff | frontend/src/users/CustomerAuth.jsx:36-61 | sign-up passes exactly when the credentials, name, phone, city, area, confirmation and terms all pass |
| CustomerAuth.ValidImpliesFormValid | frontend/src/users/CustomerAuth.jsx:116-132 | whenever validation passes the submit button was enabled |
| CustomerAuth.FormValidDoesNotImplyValid | frontend/src/users/CustomerAuth.jsx:116-132 | the button check skips the e-mail pattern: 'a@b' with 'secret1' enables the button but nothing is sent |
| CustomerAuth.BuildRequest | frontend/src/users/CustomerAuth.jsx:71-94 | login posts to the login address with only e-mail and password; sign-up posts to the register address with role 'customer' |
| CustomerAuth.Submit | frontend/src/users/CustomerAuth.jsx:63-65 | a request is sent exactly when validation passes |
| CustomerAuth.LoginBodyOnlyCredentials | frontend/src/users/CustomerAuth.jsx:71-74 | the login request is the same whatever the other fields hold |
| CustomerAuth.RoleIsAlwaysCustomer | frontend/src/users/CustomerAuth.jsx:77-87 | the form's role never reaches the request |
| CustomerAuth.SentSignupCarriesForm | frontend/src/users/CustomerAuth.jsx:76-88 | a sent sign-up carries the form's fields, with city and area under location, all of them filled in |
| AuthMiddleware.ExtractToken | backend/middleware/authMiddleware.js:5 | a token found is non-empty, has no space and comes from a present header |
| AuthMiddleware.Protect | backend/middleware/authMiddleware.js:4-17 | no token gives 401 'token missing'; a token that fails verification gives 401 'token invalid'; otherwise `next` runs once with the decoded payload |
| AuthMiddleware.BearerToken | backend/middleware/authMiddleware.js:5 | for 'Bearer <token>' the token is the second part; for 'Bearer ' (nothing after the space) there is no token |
| AuthMiddleware.SecondPart | backend/middleware/authMiddleware.js:5 | with more spaces the token is still the second part of `split(" ")` and the rest is ignored; an empty second part is no token |
| AuthMiddleware.NoSpaceNoToken | backend/middleware/authMiddleware.js:5-8 | a header without a space yields no token and a 401 'token missing' |
| AuthMiddleware.DoubleSpaceNoToken | backend/middleware/authMiddleware.js:5-8 | two spaces after the scheme leave an empty second part, so there is no token |
| AuthMiddleware.ProtectNextIff | backend/middleware/authMiddleware.js:10-13 | `next` is reached exactly when a token verifies, with the user set to the decoded payload |
| AuthMiddleware.RestrictTo | backend/middleware/authMiddleware.js:20-27 | `next` runs exactly when the payload has a role in the list; otherwise 403 |
| AuthMiddleware.RoleGateDenies | backend/middleware/authMiddleware.js:22 | a payload without a role, or an empty role list, is always denied |
| AuthMiddleware.Guard | backend/middleware/authMiddleware.js:4-27 | the handler is reached only through a successful `protect` |
| AuthMiddleware.GuardAdmitsIff | backend/middleware/authMiddleware.js:4-27 | `protect` then `restrictTo` admits exactly a verified token whose payload has a listed role |
| Registration.RegisterUser | backend/controllers/user.js:3-71 | 400 before any lookup for a missing field, then for an unknown role; 409 with the store unchanged for a known e-mail; otherwise 201, one record stored and its password-free view returned |
| Registration.ViewHidesPassword | backend/controllers/user.js:50-62 | the returned user is the same whatever the password |
| Registration.RegisterPreserves | backend/controllers/user.js:27-48 | records stay keyed by their e-mail; success adds exactly one e-mail and failure changes nothing |
| Registration.StoredLocation | backend/controllers/user.js:42-47 | the stored location is the body's city and area, or absent when none was given |
| Registration.RegisterTwiceConflicts | backend/controllers/user.js:28-33 | registering the same e-mail again gives 409 and changes nothing |
| Registration.UnknownRoleRefused | backend/controllers/user.js:21-25 | any role other than 'customer' and 'service_provider' is refused with 400 'Invalid role' before any lookup, and the collection is unchanged |
| Registration.AdminRoleRefused | backend/controllers/user.js:21-25 | the role 'admin' in particular is refused before any lookup |

## Findings

| source | as written | input that shows it | evidently intended | confidence | as-written member | corrected member |
|---|---|---|---|---|---|---|
| frontend/src/service_provider/ServiceManagement.jsx:163-177 | a successful save sets the success banner and then calls `resetServiceForm`, which clears the banner again (line 136), so it never shows | any form that passes validation, e.g. a new service with name, category, description, price 100 and duration 60 | 'Service added successfully.' or 'Service updated successfully.' stays visible after the form is reset | medium; not executed | Catalogue.SaveAsWritten, Catalogue.SaveAsWrittenLosesBanner | Catalogue.Save |
| frontend/src/service_provider/Auth.jsx:52-54 | on the login tab `validate` returns before `setErrors(newErrors)` (line 73), so a refused login shows no message | e-mail 'a@b', password 'secret1' on the login tab. The browser's e-mail field check accepts 'a@b', so the form reaches `handleSubmit`; the button is enabled, submission is refused and the screen stays silent | the collected e-mail or password message is shown, as on the sign-up tab and on the customer screen | medium; not executed | ProviderAuth.ValidateAsWritten, ProviderAuth.LoginRefusalIsSilent | ProviderAuth.Validate, ProviderAuth.LoginRefusalExplained |

## Notes on the code

- **Status checks.** The transition code has no status check, and no
  server-side lifecycle exists. The lifecycle guarantees hold only for
  actions reached through the rendered buttons: `Requests.Offered`,
  `Requests.GatedClickKeepsTerminal` and `Requests.TerminalStaysTerminal`.
- **Duplicate ids.** `Requests.TerminalStaysTerminal` assumes unique
  request ids. With duplicate ids, `find` gates on the first match while the
  `map` rewrites every match.
- **Working hours.** The reschedule window is the fixed 9–21 hour window in
  the code. The provider's weekly slots and blocked periods are not
  consulted.
- **The Beauty & Salon slug.** The provider sign-up stores the category
  "Beauty & Salon" as `beauty-&-salon` (`ProviderAuth.OptionValueBeautySalon`).
  The category lists of the other screens use `beauty-salon`
  (frontend/src/users/CustomerServiceDiscovery.jsx:25). The two screens
  share no data today, so this is recorded as an observation, not as a
  finding.

## Left out

- JSX rendering, styling, icons and navigation. Loading flags and the
  simulated delays are left out too: every transition is modelled as
  synchronous and successful, so the `catch` branches of the screens are
  not modelled.
- Registration.RegisterUser: a rejected `findOne` or `create` (a database
  or schema-validation error) and its 500 answer are not modelled.
- `Date` parsing and the local time zone: the parsed instant and hour are
  inputs to `Requests.ValidateReschedule`.
- `Number()` and floating point: price and duration positivity goes through
  the `num` oracle.
- Unicode beyond ASCII in `toLowerCase`/`toUpperCase`. String length is
  counted in characters rather than UTF-16 code units.
- `parseInt` is modelled for the decimal digits, leading white space and
  sign that times can contain. Its other leniencies are not modelled.
- Network and browser I/O: fetch/axios, `localStorage`, `alert()`, and the
  provider sign-in's own requests and their `submit` error messages.
- bcrypt, jsonwebtoken and Mongoose: hashing, `jwt.verify` and the user
  collection are parameters.
- Input handlers, which copy an input into form state and clear messages.
  The same kind of update on the profile editor is modelled as
  `Dashboard.FieldChange`. Each handler clears the following:
  - `handleServiceFieldChange`: the field's message when it had one, and
    the service banner always.
  - `handleWeeklySlotChange`: `slotError` and the availability banner.
  - `handleBlockedFieldChange`: `blockedError` and the availability banner.
  - `handleHistoryFilterChange`: nothing.
  - `handleModalFieldChange`: `modalError`.
  - `handleChange` of both sign-in screens: the field's message when it
    had one.
- Availability.ToggleDayOff: the availability banner
  (`setAvailabilityAlert`) is not modelled. `handleToggleDayOff` also clears
  it. No other modelled availability operation touches the banner. Only the
  field-change, save and reset handlers listed here set or clear it.
- `handleSaveAvailability` and `handleResetAvailability` only set a banner
  or restore the initial values (`Availability.InitialWeek`).
- The slot and blocked-period form resets that follow a successful add.
- AuthMiddleware.Protect: `next` running once is represented by a single
  `Next` outcome. The `req`/`res` objects are not modelled.
- Registration.RegisterUser: a body field that is not a string is not
  modelled; an absent field is the empty string.

=== FILE: authmiddleware.dfy ===
/** The two request guards of the backend: `protect`, which takes the token
    from the Authorization header and verifies it, and `restrictTo`, which
    admits only the listed roles. Token verification is a parameter. */
module AuthMiddleware {
  import opened Base
  import opened JsText

  /** The decoded token payload; `role` is absent when the token was signed
      without one. */
  datatype Claims = Claims(userId: string, role: Option<string>)

  /** What a guard does with a request: answer it with a status and a message,
      or call `next` once with the request's `user` set. */
  datatype Outcome = Respond(status: int, message: string) | Next(user: Claims)

  const TokenMissing := "Not authorized, token missing"
  const TokenInvalid := "Not authorized, token invalid"
  const AccessDenied := "Access denied: insufficient permissions"

  /** `req.headers.authorization?.split(" ")[1]`, kept only when non-empty. */
  function ExtractToken(header: Option<string>): (token: Option<string>)
    ensures token.Some? ==> header.Some? && |token.value| > 0 && ' ' !in token.value
  {
    if header.None? then None
    else
      var parts := Split(header.value, ' ');
      SplitPartsAvoidSeparator(header.value, ' ');
      if |parts| >= 2 && Truthy(parts[1]) then Some(parts[1]) else None
  }

  /** `protect`: a missing token, then a token `verify` rejects, answer 401;
      otherwise `next` runs with the decoded payload. */
  function Protect(header: Option<string>, verify: string -> Option<Claims>): (r: Outcome)
    ensures ExtractToken(header).None? ==> r == Respond(401, TokenMissing)
    ensures ExtractToken(header).Some? ==>
              var claims := verify(ExtractToken(header).value);
              (claims.None? ==> r == Respond(401, TokenInvalid)) && (claims.Some? ==> r == Next(claims.value))
  {
    var token := ExtractToken(header);
    if token.None? then Respond(401, TokenMissing)
    else
      match verify(token.value)
      case None => Respond(401, TokenInvalid)
      case Some(claims) => Next(claims)
  }

  /** The usual header shape: "Bearer" (or any word), one space, the token;
      with nothing after the space ('Bearer ') there is no token. */
  lemma BearerToken(scheme: string, token: string)
    requires ' ' !in scheme && ' ' !in token
    ensures ExtractToken(Some(scheme + " " + token)) == if token == "" then None else Some(token)
  {
    SplitAtSeparator(scheme, ' ', token);
    SplitWithoutSeparator(token, ' ');
    assert scheme + " " + token == scheme + [' '] + token;
  }

  /** With more than two parts the token is still the second one: whatever
      follows the next space is ignored ('Bearer a b' gives 'a'). */
  lemma SecondPart(scheme: string, token: string, rest: string)
    requires ' ' !in scheme && ' ' !in token
    ensures ExtractToken(Some(scheme + " " + token + " " + rest)) == if token == "" then None else Some(token)
  {
    SplitAtSeparator(scheme, ' ', token + " " + rest);
    SplitAtSeparator(token, ' ', rest);
    assert scheme + " " + token + " " + rest == scheme + [' '] + (token + " " + rest);
    assert token + " " + rest == token + [' '] + rest;
  }

  /** A header with no space carries no token. */
  lemma NoSpaceNoToken(header: string)
    requires ' ' !in header
    ensures ExtractToken(Some(header)) == None
    ensures Protect(Some(header), (t: string) => None) == Respond(401, TokenMissing)
  {
    SplitWithoutSeparator(header, ' ');
  }

  /** Two spaces after the scheme leave the second part empty: no token. */
  lemma DoubleSpaceNoToken(scheme: string, rest: string)
    requires ' ' !in scheme
    ensures ExtractToken(Some(scheme + "  " + rest)) == None
  {
    SplitAtSeparator(scheme, ' ', " " + rest);
    SplitAtSeparator("", ' ', rest);
    assert scheme + "  " + rest == scheme + [' '] + (" " + rest);
    assert " " + rest == "" + [' '] + rest;
  }

  /** `next` is reached only with a token `verify` accepted, and then the
      request's user is exactly what `verify` decoded. */
  lemma ProtectNextIff(header: Option<string>, verify: string -> Option<Claims>, user: Claims)
    ensures Protect(header, verify) == Next(user) <==>
              ExtractToken(header).Some? && verify(ExtractToken(header).value) == Some(user)
  {
  }

  /** `restrictTo(...roles)`: the user's role must be one of `roles`. A payload
      without a role is never in a list of strings. */
  function RestrictTo(roles: seq<string>, user: Claims): (r: Outcome)
    ensures r.Next? <==> user.role.Some? && user.role.value in roles
    ensures r.Next? ==> r.user == user
    ensures r.Respond? ==> r == Respond(403, AccessDenied)
  {
    if user.role.Some? && user.role.value in roles then Next(user) else Respond(403, AccessDenied)
  }

  /** No role list admits a payload without a role, and an empty list admits
      no one. */
  lemma RoleGateDenies(roles: seq<string>, user: Claims)
    requires user.role.None? || roles == []
    ensures RestrictTo(roles, user) == Respond(403, AccessDenied)
  {
  }

  /** A route guarded by `protect` and then `restrictTo(...roles)`. */
  function Guard(header: Option<string>, verify: string -> Option<Claims>, roles: seq<string>): (r: Outcome)
    ensures r.Next? ==> Protect(header, verify) == Next(r.user)
  {
    match Protect(header, verify)
    case Respond(status, message) => Respond(status, message)
    case Next(user) => RestrictTo(roles, user)
  }

  /** The handler behind both guards runs exactly when the header carries a
      token that verifies to a payload whose role is listed. */
  lemma GuardAdmitsIff(header: Option<string>, verify: string -> Option<Claims>, roles: seq<string>)
    ensures Guard(header, verify, roles).Next? <==>
              && ExtractToken(header).Some?
              && var claims := verify(ExtractToken(header).value);
                 claims.Some? && claims.value.role.Some? && claims.value.role.value in roles
  {
  }
}

=== FILE: availability.dfy ===
/** The provider's weekly availability and blocked periods: a map from day
    key to that day's on/off flag and time slots, edited by the day-off
    toggle, add-slot (with its ordered list of rejections) and delete-slot,
    plus a list of blocked date ranges with add and delete.

    Two invariants hold on every reachable schedule: a day that is off has no
    slots, and the slots of a day are well-formed and pairwise disjoint. */
module Availability {
  import opened Base
  import opened JsText
  import opened TimeSlots

  datatype DayConfig = DayConfig(isDayOff: bool, slots: seq<Slot>)

  /** `weeklyAvailability`, keyed by 'monday' … 'sunday'. */
  type Week = map<string, DayConfig>

  const DayKeys: seq<string> :=
    ["monday", "tuesday", "wednesday", "thursday", "friday", "saturday", "sunday"]

  /** The schedule the screen starts from: Monday 10:00–18:00, the other
      weekdays on with no slots, the weekend off. */
  function InitialWeek(): (w: Week)
    ensures w.Keys == set d | d in DayKeys
    ensures forall d :: d in w ==> (w[d].isDayOff <==> d == "saturday" || d == "sunday")
  {
    map[
      "monday" := DayConfig(false, [MondaySlot]),
      "tuesday" := DayConfig(false, []),
      "wednesday" := DayConfig(false, []),
      "thursday" := DayConfig(false, []),
      "friday" := DayConfig(false, []),
      "saturday" := DayConfig(true, []),
      "sunday" := DayConfig(true, [])
    ]
  }

  // ---------------------------------------------------------------------------
  // Invariants
  // ---------------------------------------------------------------------------

  /** Both ends parse and the slot ends strictly after it starts. */
  predicate ValidRange(start: string, end: string)
  {
    && TimeToMinutes(start).Some? && TimeToMinutes(end).Some?
    && TimeToMinutes(start).value < TimeToMinutes(end).value
  }

  predicate WellFormedSlot(slot: Slot)
  {
    ValidRange(slot.start, slot.end)
  }

  /** Two slots whose times parse share no minute under the half-open test. */
  predicate Disjoint(x: Slot, y: Slot)
  {
    Parses(x) && Parses(y) ==>
      !HalfOpenClash(TimeToMinutes(x.start).value, TimeToMinutes(x.end).value,
                     TimeToMinutes(y.start).value, TimeToMinutes(y.end).value)
  }

  predicate PairwiseDisjoint(slots: seq<Slot>)
  {
    forall i, j :: 0 <= i < j < |slots| ==> Disjoint(slots[i], slots[j])
  }

  predicate DayOffHasNoSlots(w: Week)
  {
    forall d :: d in w && w[d].isDayOff ==> |w[d].slots| == 0
  }

  predicate SlotsWellFormed(w: Week)
  {
    forall d :: d in w ==> forall i :: 0 <= i < |w[d].slots| ==> WellFormedSlot(w[d].slots[i])
  }

  predicate SlotsDisjoint(w: Week)
  {
    forall d :: d in w ==> PairwiseDisjoint(w[d].slots)
  }

  predicate Invariant(w: Week)
  {
    DayOffHasNoSlots(w) && SlotsWellFormed(w) && SlotsDisjoint(w)
  }

  lemma SixPm()
    ensures TimeToMinutes("18:00") == Some(1080)
  {
    assert DigitValue('1') == 1 && DigitValue('8') == 8 && DigitValue('0') == 0;
    WellFormedTimeMinutes("18:00");
  }

  /** The starting schedule satisfies the invariant. */
  lemma InitialWeekInvariant()
    ensures Invariant(InitialWeek())
  {
    var w := InitialWeek();
    InitialWeekShape();
    AtMostOneSlot(w);
    MondaySlotWellFormed();
    OnlySlot(w, MondaySlot);
  }

  lemma InitialWeekShape()
    ensures forall d :: d in InitialWeek() ==>
              InitialWeek()[d].slots == [] || InitialWeek()[d].slots == [MondaySlot]
  {
  }

  lemma AtMostOneSlot(w: Week)
    requires forall d :: d in w ==> |w[d].slots| <= 1
    ensures SlotsDisjoint(w)
  {
  }

  lemma OnlySlot(w: Week, x: Slot)
    requires WellFormedSlot(x)
    requires forall d :: d in w ==> forall i :: 0 <= i < |w[d].slots| ==> w[d].slots[i] == x
    ensures SlotsWellFormed(w)
  {
  }

  const MondaySlot := Slot("mon-1", "10:00", "18:00")

  lemma MondaySlotWellFormed()
    ensures WellFormedSlot(MondaySlot)
  {
    ReadingExample();
    SixPm();
  }

  /** A subsequence of pairwise disjoint slots is pairwise disjoint. */
  lemma {:induction false} SubsequenceDisjoint(a: seq<Slot>, b: seq<Slot>)
    requires IsSubsequence(a, b) && PairwiseDisjoint(b)
    ensures PairwiseDisjoint(a)
    decreases |b|
  {
    if |a| > 0 {
      if a[0] == b[0] && IsSubsequence(a[1..], b[1..]) {
        SubsequenceDisjoint(a[1..], b[1..]);
        SubsequenceElements(a[1..], b[1..]);
        forall i, j | 0 <= i < j < |a|
          ensures Disjoint(a[i], a[j])
        {
          assert a[j] == a[1..][j - 1];
          if i == 0 {
            var k :| 0 <= k < |b[1..]| && b[1..][k] == a[j];
            assert Disjoint(b[0], b[k + 1]);
          } else {
            assert a[i] == a[1..][i - 1];
          }
        }
      } else {
        assert forall i, j :: 0 <= i < j < |b[1..]| ==> b[1..][i] == b[i + 1] && b[1..][j] == b[j + 1];
        SubsequenceDisjoint(a, b[1..]);
      }
    }
  }

  // ---------------------------------------------------------------------------
  // Day-off toggle
  // ---------------------------------------------------------------------------

  /** `handleToggleDayOff`: flips the day's flag, and a day that becomes off
      loses its slots. The screen only calls it with one of the seven keys. */
  function ToggleDayOff(w: Week, dayKey: string): (r: Week)
    requires dayKey in w
    ensures r.Keys == w.Keys
    ensures forall d :: d in w && d != dayKey ==> r[d] == w[d]
    ensures r[dayKey].isDayOff == !w[dayKey].isDayOff
    ensures r[dayKey].isDayOff ==> r[dayKey].slots == []
    ensures !r[dayKey].isDayOff ==> r[dayKey].slots == w[dayKey].slots
  {
    var off := !w[dayKey].isDayOff;
    w[dayKey := DayConfig(off, if off then [] else w[dayKey].slots)]
  }

  lemma ToggleDayOffPreserves(w: Week, dayKey: string)
    requires dayKey in w && Invariant(w)
    ensures Invariant(ToggleDayOff(w, dayKey))
  {
  }

  /** Turning a day off and back on (or on and back off) leaves it with its
      original flag and an empty slot list; the other days are untouched. */
  lemma ToggleTwiceClearsSlots(w: Week, dayKey: string)
    requires dayKey in w
    ensures var r := ToggleDayOff(ToggleDayOff(w, dayKey), dayKey);
      && r.Keys == w.Keys
      && r[dayKey] == DayConfig(w[dayKey].isDayOff, [])
      && forall d :: d in w && d != dayKey ==> r[d] == w[d]
  {
  }

  /** On a schedule satisfying the invariant, toggling a day that is off
      twice gives the schedule back. */
  lemma ToggleOffDayTwice(w: Week, dayKey: string)
    requires dayKey in w && w[dayKey].isDayOff && DayOffHasNoSlots(w)
    ensures ToggleDayOff(ToggleDayOff(w, dayKey), dayKey) == w
  {
    ToggleTwiceClearsSlots(w, dayKey);
    var r := ToggleDayOff(ToggleDayOff(w, dayKey), dayKey);
    assert forall d :: d in w ==> r[d] == w[d];
  }

  // ---------------------------------------------------------------------------
  // Adding and deleting a slot
  // ---------------------------------------------------------------------------

  /** The reasons `handleAddSlot` refuses a slot, in the order it checks them. */
  datatype SlotError = MissingTime | EndNotAfterStart | DayOff | Overlaps

  function SlotErrorMessage(e: SlotError): string
  {
    match e
    case MissingTime => "Please provide both start and end time."
    case EndNotAfterStart => "End time must be later than start time."
    case DayOff => "This day is marked as off. Enable it before adding slots."
    case Overlaps => "This time slot overlaps with an existing slot."
  }

  /** `handleAddSlot` on the form's day, start and end; `stamp` stands for
      `Date.now()` in the new slot's id. */
  function AddSlot(w: Week, dayKey: string, start: string, end: string, stamp: string): (r: Result<Week, SlotError>)
    ensures !Truthy(start) || !Truthy(end) ==> r == Err(MissingTime)
    ensures Truthy(start) && Truthy(end) && !ValidRange(start, end) ==> r == Err(EndNotAfterStart)
    ensures Truthy(start) && Truthy(end) && ValidRange(start, end) && (dayKey !in w || w[dayKey].isDayOff) ==>
              r == Err(DayOff)
    ensures (&& Truthy(start) && Truthy(end) && ValidRange(start, end) && dayKey in w && !w[dayKey].isDayOff
             && HasOverlap(w[dayKey].slots, start, end)) ==> r == Err(Overlaps)
    ensures r.Ok? <==>
              && Truthy(start) && Truthy(end) && ValidRange(start, end)
              && dayKey in w && !w[dayKey].isDayOff && !HasOverlap(w[dayKey].slots, start, end)
    ensures r.Ok? ==>
              && r.value.Keys == w.Keys
              && (forall d :: d in w && d != dayKey ==> r.value[d] == w[d])
              && r.value[dayKey].isDayOff == w[dayKey].isDayOff
              && r.value[dayKey].slots == w[dayKey].slots + [Slot(dayKey + "-" + stamp, start, end)]
  {
    if !Truthy(start) || !Truthy(end) then Err(MissingTime)
    else if !ValidRange(start, end) then Err(EndNotAfterStart)
    else if dayKey !in w || w[dayKey].isDayOff then Err(DayOff)
    else if HasOverlap(w[dayKey].slots, start, end) then Err(Overlaps)
    else
      var day := w[dayKey];
      Ok(w[dayKey := day.(slots := day.slots + [Slot(dayKey + "-" + stamp, start, end)])])
  }

  /** A slot that passed the overlap test is disjoint from every slot already there. */
  lemma NoOverlapMeansDisjoint(slots: seq<Slot>, n: Slot)
    requires ValidRange(n.start, n.end) && !HasOverlap(slots, n.start, n.end)
    ensures forall i :: 0 <= i < |slots| ==> Disjoint(slots[i], n)
  {
    var a, b := TimeToMinutes(n.start).value, TimeToMinutes(n.end).value;
    forall i | 0 <= i < |slots|
      ensures Disjoint(slots[i], n)
    {
      assert !ClashesWith(a, b, slots[i]);
      if Parses(slots[i]) {
        HalfOpenClashSymmetric(a, b, TimeToMinutes(slots[i].start).value, TimeToMinutes(slots[i].end).value);
      }
    }
  }

  lemma AddSlotPreserves(w: Week, dayKey: string, start: string, end: string, stamp: string)
    requires Invariant(w) && AddSlot(w, dayKey, start, end, stamp).Ok?
    ensures Invariant(AddSlot(w, dayKey, start, end, stamp).value)
  {
    var r := AddSlot(w, dayKey, start, end, stamp).value;
    var n := Slot(dayKey + "-" + stamp, start, end);
    AppendDisjoint(w[dayKey].slots, n);
    AppendWellFormed(w[dayKey].slots, n);
  }

  lemma AppendDisjoint(slots: seq<Slot>, n: Slot)
    requires PairwiseDisjoint(slots)
    requires ValidRange(n.start, n.end) && !HasOverlap(slots, n.start, n.end)
    ensures PairwiseDisjoint(slots + [n])
  {
    NoOverlapMeansDisjoint(slots, n);
    var all := slots + [n];
    forall i, j | 0 <= i < j < |all|
      ensures Disjoint(all[i], all[j])
    {
      if j == |slots| {
        assert all[j] == n && all[i] == slots[i];
      } else {
        assert all[i] == slots[i] && all[j] == slots[j];
      }
    }
  }

  lemma AppendWellFormed(slots: seq<Slot>, n: Slot)
    requires forall i :: 0 <= i < |slots| ==> WellFormedSlot(slots[i])
    requires WellFormedSlot(n)
    ensures forall i :: 0 <= i < |slots + [n]| ==> WellFormedSlot((slots + [n])[i])
  {
    forall i | 0 <= i < |slots + [n]|
      ensures WellFormedSlot((slots + [n])[i])
    {
      if i < |slots| {
        assert (slots + [n])[i] == slots[i];
      }
    }
  }

  /** `handleDeleteSlot`: the day keeps every slot whose id differs, in order. */
  function DeleteSlot(w: Week, dayKey: string, slotId: string): (r: Week)
    requires dayKey in w
    ensures r.Keys == w.Keys
    ensures forall d :: d in w && d != dayKey ==> r[d] == w[d]
    ensures r[dayKey].isDayOff == w[dayKey].isDayOff
    ensures IsSubsequence(r[dayKey].slots, w[dayKey].slots)
    ensures forall i :: 0 <= i < |r[dayKey].slots| ==> r[dayKey].slots[i].id != slotId
    ensures forall i :: 0 <= i < |w[dayKey].slots| && w[dayKey].slots[i].id != slotId ==>
              w[dayKey].slots[i] in r[dayKey].slots
    ensures forall s :: multiset(r[dayKey].slots)[s] == if s.id != slotId then multiset(w[dayKey].slots)[s] else 0
  {
    var day := w[dayKey];
    w[dayKey := day.(slots := Filter((slot: Slot) => slot.id != slotId, day.slots))]
  }

  lemma DeleteSlotPreserves(w: Week, dayKey: string, slotId: string)
    requires dayKey in w && Invariant(w)
    ensures Invariant(DeleteSlot(w, dayKey, slotId))
  {
    var r := DeleteSlot(w, dayKey, slotId);
    SubsequenceDisjoint(r[dayKey].slots, w[dayKey].slots);
    SubsequenceWellFormed(r[dayKey].slots, w[dayKey].slots);
  }

  lemma SubsequenceWellFormed(a: seq<Slot>, b: seq<Slot>)
    requires IsSubsequence(a, b)
    requires forall i :: 0 <= i < |b| ==> WellFormedSlot(b[i])
    ensures forall i :: 0 <= i < |a| ==> WellFormedSlot(a[i])
  {
    SubsequenceElements(a, b);
    forall i | 0 <= i < |a|
      ensures WellFormedSlot(a[i])
    {
      var k :| 0 <= k < |b| && b[k] == a[i];
    }
  }

  // ---------------------------------------------------------------------------
  // Blocked periods
  // ---------------------------------------------------------------------------

  /** A range of dates ('YYYY-MM-DD') the provider is away. */
  datatype BlockedPeriod = BlockedPeriod(id: string, startDate: string, endDate: string, reason: string)

  datatype BlockedError = MissingDates | EndBeforeStart

  function BlockedErrorMessage(e: BlockedError): string
  {
    match e
    case MissingDates => "Please select both start and end date."
    case EndBeforeStart => "End date must be on or after start date."
  }

  const DefaultReason := "Unavailable"

  /** `reason.trim() || 'Unavailable'`: a stored reason is never blank and
      has no white space at either end. */
  function StoredReason(reason: string): (r: string)
    ensures |r| > 0 && Trim(r) == r
    ensures Blank(reason) ==> r == DefaultReason
    ensures !Blank(reason) ==> r == Trim(reason)
  {
    var t := Trim(reason);
    if Truthy(t) then t else TrimOfTrimmed(t); DefaultReason
  }

  /** `handleAddBlockedPeriod`; `stamp` stands for `Date.now()` in the id. */
  function AddBlocked(periods: seq<BlockedPeriod>, startDate: string, endDate: string, reason: string, stamp: string):
    (r: Result<seq<BlockedPeriod>, BlockedError>)
    ensures r == Err(MissingDates) <==> !Truthy(startDate) || !Truthy(endDate)
    ensures r == Err(EndBeforeStart) <==> Truthy(startDate) && Truthy(endDate) && Less(endDate, startDate)
    ensures r.Ok? ==>
              && |r.value| == |periods| + 1
              && r.value[..|periods|] == periods
              && r.value[|periods|] == BlockedPeriod("blk-" + stamp, startDate, endDate, StoredReason(reason))
              && LessOrEqual(startDate, endDate)
  {
    if !Truthy(startDate) || !Truthy(endDate) then Err(MissingDates)
    else if Less(endDate, startDate) then Err(EndBeforeStart)
    else
      LessTrichotomy(startDate, endDate);
      Ok(periods + [BlockedPeriod("blk-" + stamp, startDate, endDate, StoredReason(reason))])
  }

  /** `handleDeleteBlockedPeriod`: every period with that id goes, the rest
      stay in order. */
  function DeleteBlocked(periods: seq<BlockedPeriod>, id: string): (r: seq<BlockedPeriod>)
    ensures IsSubsequence(r, periods)
    ensures forall i :: 0 <= i < |r| ==> r[i].id != id
    ensures forall i :: 0 <= i < |periods| && periods[i].id != id ==> periods[i] in r
    ensures forall p :: multiset(r)[p] == if p.id != id then multiset(periods)[p] else 0
  {
    Filter((p: BlockedPeriod) => p.id != id, periods)
  }

  /** Every stored period has both dates, the start no later than the end,
      and a non-blank trimmed reason. */
  predicate PeriodsWellFormed(periods: seq<BlockedPeriod>)
  {
    forall i :: 0 <= i < |periods| ==>
      && Truthy(periods[i].startDate) && Truthy(periods[i].endDate)
      && LessOrEqual(periods[i].startDate, periods[i].endDate)
      && |periods[i].reason| > 0 && Trim(periods[i].reason) == periods[i].reason
  }

  lemma AddBlockedPreserves(periods: seq<BlockedPeriod>, startDate: string, endDate: string, reason: string, stamp: string)
    requires PeriodsWellFormed(periods)
    requires AddBlocked(periods, startDate, endDate, reason, stamp).Ok?
    ensures PeriodsWellFormed(AddBlocked(periods, startDate, endDate, reason, stamp).value)
  {
    var r := AddBlocked(periods, startDate, endDate, reason, stamp).value;
    forall i | 0 <= i < |r|
      ensures Truthy(r[i].startDate) && Truthy(r[i].endDate)
      ensures LessOrEqual(r[i].startDate, r[i].endDate)
      ensures |r[i].reason| > 0 && Trim(r[i].reason) == r[i].reason
    {
      if i < |periods| {
        assert r[i] == r[..|periods|][i] == periods[i];
      }
    }
  }

  lemma DeleteBlockedPreserves(periods: seq<BlockedPeriod>, id: string)
    requires PeriodsWellFormed(periods)
    ensures PeriodsWellFormed(DeleteBlocked(periods, id))
  {
  }
}

=== FILE: base.dfy ===
/** Small shared vocabulary: an optional value and the order-preserving
    `Array.prototype.filter` that every list view of the application uses. */
module Base {

  /** A value that may be absent: `undefined`/`null` on the JavaScript side. */
  datatype Option<+T> = None | Some(value: T)

  /** The outcome of a handler that either produces a new value or reports
      the first check that failed. */
  datatype Result<+T, +E> = Ok(value: T) | Err(error: E)

  /** A banner above a form or page; `kind` is '' (hidden), 'success' or 'error'. */
  datatype Alert = Alert(kind: string, message: string)

  const NoAlert := Alert("", "")

  /** A user's `location`: the city and the area within it. */
  datatype Location = Location(city: string, area: string)

  function Success(message: string): Alert
  {
    Alert("success", message)
  }

  /** `xs.filter(keep)`: the elements that pass, in their original order. */
  function Filter<T(==,!new)>(keep: T -> bool, xs: seq<T>): (r: seq<T>)
    ensures |r| <= |xs|
    ensures forall i :: 0 <= i < |r| ==> r[i] in xs && keep(r[i])
    ensures forall i :: 0 <= i < |xs| && keep(xs[i]) ==> xs[i] in r
    ensures IsSubsequence(r, xs)
    ensures forall x :: multiset(r)[x] == if keep(x) then multiset(xs)[x] else 0
  {
    if |xs| == 0 then []
    else
      var rest := Filter(keep, xs[1..]);
      assert xs == [xs[0]] + xs[1..];
      if keep(xs[0]) then
        assert ([xs[0]] + rest)[1..] == rest;
        [xs[0]] + rest
      else rest
  }

  /** `small` can be obtained from `big` by deleting elements, keeping the order
      of the rest. */
  predicate IsSubsequence<T(==)>(small: seq<T>, big: seq<T>)
    decreases |big|
  {
    || |small| == 0
    || (&& |big| > 0
        && ((small[0] == big[0] && IsSubsequence(small[1..], big[1..]))
            || IsSubsequence(small, big[1..])))
  }

  lemma {:induction false} SubsequenceTransitive<T>(a: seq<T>, b: seq<T>, c: seq<T>)
    requires IsSubsequence(a, b) && IsSubsequence(b, c)
    ensures IsSubsequence(a, c)
    decreases |c|
  {
    if |a| > 0 {
      if IsSubsequence(b, c[1..]) {
        SubsequenceTransitive(a, b, c[1..]);
      } else if a[0] == b[0] && IsSubsequence(a[1..], b[1..]) {
        SubsequenceTransitive(a[1..], b[1..], c[1..]);
      } else {
        SubsequenceTransitive(a, b[1..], c[1..]);
      }
    }
  }

  /** Filtering with a predicate that lets everything through is the identity. */
  lemma {:induction false} FilterAll<T(!new)>(keep: T -> bool, xs: seq<T>)
    requires forall i :: 0 <= i < |xs| ==> keep(xs[i])
    ensures Filter(keep, xs) == xs
  {
    if |xs| > 0 {
      FilterAll(keep, xs[1..]);
    }
  }

  /** A stricter predicate keeps a subsequence of what a weaker one keeps. */
  lemma {:induction false} FilterMonotone<T(!new)>(strict: T -> bool, loose: T -> bool, xs: seq<T>)
    requires forall x :: strict(x) ==> loose(x)
    ensures IsSubsequence(Filter(strict, xs), Filter(loose, xs))
  {
    if |xs| > 0 {
      FilterMonotone(strict, loose, xs[1..]);
      var a, b := Filter(strict, xs[1..]), Filter(loose, xs[1..]);
      if strict(xs[0]) {
        assert ([xs[0]] + a)[1..] == a && ([xs[0]] + b)[1..] == b;
      } else if loose(xs[0]) {
        assert ([xs[0]] + b)[1..] == b;
      }
    }
  }

  /** Every element of a subsequence is an element of the sequence it came from. */
  lemma {:induction false} SubsequenceElements<T>(small: seq<T>, big: seq<T>)
    requires IsSubsequence(small, big)
    ensures forall i :: 0 <= i < |small| ==> small[i] in big
    decreases |big|
  {
    if |small| > 0 {
      if small[0] == big[0] && IsSubsequence(small[1..], big[1..]) {
        SubsequenceElements(small[1..], big[1..]);
        assert forall i :: 1 <= i < |small| ==> small[i] == small[1..][i - 1];
      } else {
        SubsequenceElements(small, big[1..]);
      }
    }
  }

  /** A subsequence never holds an element more often than the sequence it came from. */
  lemma {:induction false} SubsequenceMultiset<T>(small: seq<T>, big: seq<T>)
    requires IsSubsequence(small, big)
    ensures multiset(small) <= multiset(big)
    decreases |big|
  {
    if |small| > 0 {
      assert big == [big[0]] + big[1..];
      if small[0] == big[0] && IsSubsequence(small[1..], big[1..]) {
        SubsequenceMultiset(small[1..], big[1..]);
        assert small == [small[0]] + small[1..];
      } else {
        SubsequenceMultiset(small, big[1..]);
      }
    }
  }

  /** `Filter`'s contract pins its result down: the only subsequence of `xs`
      holding each kept value as often as `xs` does, and no dropped value, is
      `Filter(keep, xs)`. */
  lemma {:induction false} FilterCharacterised<T(!new)>(keep: T -> bool, xs: seq<T>, r: seq<T>)
    requires IsSubsequence(r, xs)
    requires forall x :: multiset(r)[x] == if keep(x) then multiset(xs)[x] else 0
    ensures r == Filter(keep, xs)
    decreases |xs|
  {
    if |xs| > 0 {
      var h, tail := xs[0], xs[1..];
      assert xs == [h] + tail;
      if keep(h) {
        assert multiset(r)[h] == multiset(tail)[h] + 1;
        if IsSubsequence(r, tail) {
          SubsequenceMultiset(r, tail);
          assert false;
        }
        assert |r| > 0 && r[0] == h && IsSubsequence(r[1..], tail);
        assert r == [h] + r[1..];
        forall x
          ensures multiset(r[1..])[x] == if keep(x) then multiset(tail)[x] else 0
        {
          assert multiset(r)[x] == multiset(r[1..])[x] + (if x == h then 1 else 0);
        }
        FilterCharacterised(keep, tail, r[1..]);
      } else {
        if |r| > 0 {
          assert r[0] in multiset(r);
          assert r[0] != h;
        }
        assert IsSubsequence(r, tail);
        FilterCharacterised(keep, tail, r);
      }
    }
  }
}

=== FILE: catalogue.dfy ===
/** The provider's service catalogue: the service form's validation, save
    (update in place when the form carries an id, append otherwise) and
    delete. `Number(...)` on the price and duration fields is a parameter
    `num`, where `None` stands for NaN. */
module Catalogue {
  import opened Base
  import opened JsText

  /** The editable part of a service. `pricingType` is carried along but never checked. */
  datatype ServiceFields = ServiceFields(
    name: string,
    category: string,
    description: string,
    basePrice: string,
    pricingType: string,
    duration: string)

  datatype Service = Service(id: string, fields: ServiceFields)

  /** The form: `id` is `null` (`None`) for a new service and the edited
      service's id otherwise. */
  datatype ServiceForm = ServiceForm(id: Option<string>, fields: ServiceFields)

  const EmptyFields := ServiceFields("", "", "", "", "fixed", "")
  const EmptyForm := ServiceForm(None, EmptyFields)

  /** The `errors` object of the form: a field has a message exactly when
      the object has that key. */
  datatype ServiceErrors = ServiceErrors(
    name: Option<string>,
    category: Option<string>,
    description: Option<string>,
    basePrice: Option<string>,
    duration: Option<string>)

  const NoErrors := ServiceErrors(None, None, None, None, None)

  /** `isNaN(Number(x)) || Number(x) <= 0` fails: the field reads as a positive number. */
  predicate PositiveNumber(num: string -> Option<real>, x: string)
  {
    num(x).Some? && num(x).value > 0.0
  }

  /** The check of a numeric field: required first, then positive. */
  function NumberError(num: string -> Option<real>, x: string, required: string, invalid: string): (r: Option<string>)
    ensures r.None? <==> !Blank(x) && PositiveNumber(num, x)
    ensures Blank(x) ==> r == Some(required)
    ensures !Blank(x) && !PositiveNumber(num, x) ==> r == Some(invalid)
  {
    if Blank(x) then Some(required)
    else if !PositiveNumber(num, x) then Some(invalid)
    else None
  }

  /** `validateServiceForm`: one message per failing field. */
  function ValidateService(f: ServiceFields, num: string -> Option<real>): (errors: ServiceErrors)
    ensures errors.name.Some? <==> Blank(f.name)
    ensures errors.category.Some? <==> !Truthy(f.category)
    ensures errors.description.Some? <==> Blank(f.description)
    ensures errors.basePrice.Some? <==> Blank(f.basePrice) || !PositiveNumber(num, f.basePrice)
    ensures errors.duration.Some? <==> Blank(f.duration) || !PositiveNumber(num, f.duration)
  {
    ServiceErrors(
      if Blank(f.name) then Some("Service name is required") else None,
      if !Truthy(f.category) then Some("Please select a category") else None,
      if Blank(f.description) then Some("Description is required") else None,
      NumberError(num, f.basePrice, "Base price is required", "Enter a valid positive number"),
      NumberError(num, f.duration, "Estimated duration is required", "Enter duration in minutes (positive number)"))
  }

  /** A service is valid exactly when name and description are not blank, a
      category is chosen, and price and duration are filled in and read as
      positive numbers. */
  lemma ServiceValidIff(f: ServiceFields, num: string -> Option<real>)
    ensures ValidateService(f, num) == NoErrors <==>
              && !Blank(f.name) && Truthy(f.category) && !Blank(f.description)
              && !Blank(f.basePrice) && PositiveNumber(num, f.basePrice)
              && !Blank(f.duration) && PositiveNumber(num, f.duration)
  {
    var r := ValidateService(f, num);
    assert r == NoErrors <==>
             r.name.None? && r.category.None? && r.description.None? && r.basePrice.None? && r.duration.None?;
  }

  /** The service section of the screen. */
  datatype Editor = Editor(services: seq<Service>, form: ServiceForm, errors: ServiceErrors, alert: Alert)

  /** `resetServiceForm`. */
  function ResetForm(e: Editor): (r: Editor)
    ensures r.services == e.services
    ensures r.form == EmptyForm && r.errors == NoErrors && r.alert == NoAlert
  {
    e.(form := EmptyForm, errors := NoErrors, alert := NoAlert)
  }

  /** `handleEditService`: the form takes the service's id and fields. */
  function EditService(e: Editor, svc: Service): (r: Editor)
    ensures r.services == e.services && r.errors == e.errors && r.alert == NoAlert
    ensures r.form.id == Some(svc.id) && r.form.fields == svc.fields
  {
    e.(form := ServiceForm(Some(svc.id), svc.fields), alert := NoAlert)
  }

  /** The form targets an existing service: its id is present and truthy. */
  predicate Editing(form: ServiceForm)
  {
    form.id.Some? && Truthy(form.id.value)
  }

  /** The update of `handleSaveService`: every service with the form's id
      becomes the form's content; the others stay. */
  function UpdateMatching(services: seq<Service>, id: string, fields: ServiceFields): (r: seq<Service>)
    ensures |r| == |services|
    ensures forall i :: 0 <= i < |r| ==> r[i].id == services[i].id
    ensures forall i :: 0 <= i < |r| && services[i].id == id ==> r[i].fields == fields
    ensures forall i :: 0 <= i < |r| && services[i].id != id ==> r[i] == services[i]
  {
    if |services| == 0 then []
    else
      var head := if services[0].id == id then Service(id, fields) else services[0];
      [head] + UpdateMatching(services[1..], id, fields)
  }

  const UpdatedMessage := "Service updated successfully."
  const AddedMessage := "Service added successfully."
  const RemovedMessage := "Service removed successfully."

  /** The list after a save whose form passed validation; `stamp` stands for
      `Date.now()` in a new service's id. */
  function SavedServices(services: seq<Service>, form: ServiceForm, stamp: string): (r: seq<Service>)
    ensures Editing(form) ==> |r| == |services|
    ensures Editing(form) ==> forall i :: 0 <= i < |r| ==>
              r[i] == if services[i].id == form.id.value then Service(services[i].id, form.fields) else services[i]
    ensures !Editing(form) ==> r == services + [Service("svc-" + stamp, form.fields)]
  {
    if Editing(form) then UpdateMatching(services, form.id.value, form.fields)
    else services + [Service("svc-" + stamp, form.fields)]
  }

  /** `handleSaveService` as written: the success banner is set and then
      `resetServiceForm` clears it again, so it never shows. */
  function SaveAsWritten(e: Editor, num: string -> Option<real>, stamp: string): (r: Editor)
    ensures ValidateService(e.form.fields, num) != NoErrors ==>
              r == e.(errors := ValidateService(e.form.fields, num), alert := NoAlert)
    ensures ValidateService(e.form.fields, num) == NoErrors ==>
              && r.services == SavedServices(e.services, e.form, stamp)
              && r.form == EmptyForm && r.errors == NoErrors && r.alert == NoAlert
  {
    var errors := ValidateService(e.form.fields, num);
    if errors != NoErrors then e.(errors := errors, alert := NoAlert)
    else
      var message := if Editing(e.form) then UpdatedMessage else AddedMessage;
      var saved := e.(services := SavedServices(e.services, e.form, stamp), errors := errors, alert := Success(message));
      ResetForm(saved)
  }

  /** A successful save as written leaves no banner at all. */
  lemma SaveAsWrittenLosesBanner(e: Editor, num: string -> Option<real>, stamp: string)
    requires ValidateService(e.form.fields, num) == NoErrors
    ensures SaveAsWritten(e, num, stamp).alert == NoAlert
  {
  }

  /** `handleSaveService` with the banner set after the form is reset, so a
      successful save reports what it did. */
  function Save(e: Editor, num: string -> Option<real>, stamp: string): (r: Editor)
    ensures ValidateService(e.form.fields, num) != NoErrors ==>
              r == e.(errors := ValidateService(e.form.fields, num), alert := NoAlert)
    ensures ValidateService(e.form.fields, num) == NoErrors ==>
              && r.services == SavedServices(e.services, e.form, stamp)
              && r.form == EmptyForm && r.errors == NoErrors
              && r.alert == Success(if Editing(e.form) then UpdatedMessage else AddedMessage)
  {
    var errors := ValidateService(e.form.fields, num);
    if errors != NoErrors then e.(errors := errors, alert := NoAlert)
    else
      var message := if Editing(e.form) then UpdatedMessage else AddedMessage;
      ResetForm(e.(services := SavedServices(e.services, e.form, stamp))).(alert := Success(message))
  }

  /** The two versions agree on everything but the banner. */
  lemma SaveDiffersOnlyInBanner(e: Editor, num: string -> Option<real>, stamp: string)
    ensures Save(e, num, stamp).(alert := NoAlert) == SaveAsWritten(e, num, stamp).(alert := NoAlert)
  {
  }

  /** `handleDeleteService`: services with that id go; the form is reset
      only when it was editing that id. */
  function DeleteService(e: Editor, id: string): (r: Editor)
    ensures IsSubsequence(r.services, e.services)
    ensures forall i :: 0 <= i < |r.services| ==> r.services[i].id != id
    ensures forall i :: 0 <= i < |e.services| && e.services[i].id != id ==> e.services[i] in r.services
    ensures forall s :: multiset(r.services)[s] == if s.id != id then multiset(e.services)[s] else 0
    ensures e.form.id == Some(id) ==> r.form == EmptyForm && r.errors == NoErrors
    ensures e.form.id != Some(id) ==> r.form == e.form && r.errors == e.errors
    ensures r.alert == Success(RemovedMessage)
  {
    var kept := e.(services := Filter((svc: Service) => svc.id != id, e.services));
    var reset := if e.form.id == Some(id) then ResetForm(kept) else kept;
    reset.(alert := Success(RemovedMessage))
  }

  predicate UniqueIds(services: seq<Service>)
  {
    forall i, j :: 0 <= i < j < |services| ==> services[i].id != services[j].id
  }

  /** Editing a listed service and saving valid changes rewrites exactly that
      entry: with unique ids, position `k` gets the new fields and every other
      entry is unchanged. */
  lemma EditThenSave(e: Editor, k: int, fields: ServiceFields, num: string -> Option<real>, stamp: string)
    requires 0 <= k < |e.services| && UniqueIds(e.services) && Truthy(e.services[k].id)
    requires ValidateService(fields, num) == NoErrors
    ensures var r := Save(EditService(e, e.services[k]).(form := ServiceForm(Some(e.services[k].id), fields)), num, stamp);
      && |r.services| == |e.services|
      && r.services[k] == Service(e.services[k].id, fields)
      && (forall i :: 0 <= i < |e.services| && i != k ==> r.services[i] == e.services[i])
      && UniqueIds(r.services)
  {
  }

  /** Adding keeps ids unique when the new id is fresh; deleting keeps them unique. */
  lemma SaveKeepsIdsUnique(e: Editor, num: string -> Option<real>, stamp: string)
    requires UniqueIds(e.services)
    requires forall i :: 0 <= i < |e.services| ==> e.services[i].id != "svc-" + stamp
    ensures UniqueIds(Save(e, num, stamp).services)
  {
    if ValidateService(e.form.fields, num) == NoErrors {
      var r := SavedServices(e.services, e.form, stamp);
      if !Editing(e.form) {
        forall i, j | 0 <= i < j < |r|
          ensures r[i].id != r[j].id
        {
          assert r[i] == e.services[i];
          if j < |e.services| {
            assert r[j] == e.services[j];
          }
        }
      }
    }
  }

  lemma DeleteKeepsIdsUnique(e: Editor, id: string)
    requires UniqueIds(e.services)
    ensures UniqueIds(DeleteService(e, id).services)
  {
    var a, b := DeleteService(e, id).services, e.services;
    SubsequenceUnique(a, b);
  }

  lemma {:induction false} SubsequenceUnique(a: seq<Service>, b: seq<Service>)
    requires IsSubsequence(a, b) && UniqueIds(b)
    ensures UniqueIds(a)
    decreases |b|
  {
    if |a| > 0 {
      assert UniqueIds(b[1..]) by {
        assert forall i :: 0 <= i < |b[1..]| ==> b[1..][i] == b[i + 1];
      }
      if a[0] == b[0] && IsSubsequence(a[1..], b[1..]) {
        SubsequenceUnique(a[1..], b[1..]);
        SubsequenceElements(a[1..], b[1..]);
        forall i, j | 0 <= i < j < |a|
          ensures a[i].id != a[j].id
        {
          assert a[j] == a[1..][j - 1];
          if i == 0 {
            var k :| 0 <= k < |b[1..]| && b[1..][k] == a[j];
            assert b[k + 1] == a[j];
          } else {
            assert a[i] == a[1..][i - 1];
          }
        }
      } else {
        SubsequenceUnique(a, b[1..]);
      }
    }
  }
}

=== FILE: customerauth.dfy ===
/** The customer's sign-in screen: validation on the two tabs, the check
    that enables the submit button, and the request a submission sends. */
module CustomerAuth {
  import opened Base
  import opened JsText
  import opened FormRules

  datatype Tab = Login | Signup

  datatype CustomerForm = CustomerForm(
    name: string,
    email: string,
    password: string,
    confirmPassword: string,
    phone: string,
    city: string,
    area: string,
    role: string,
    terms: bool)

  /** The `errors` object; a field has a message exactly when the key is set. */
  datatype CustomerErrors = CustomerErrors(
    email: Option<string>,
    password: Option<string>,
    name: Option<string>,
    phone: Option<string>,
    city: Option<string>,
    area: Option<string>,
    confirmPassword: Option<string>,
    terms: Option<string>)

  const NoErrors := CustomerErrors(None, None, None, None, None, None, None, None)

  /** The messages both tabs collect. */
  function CommonErrors(f: CustomerForm): (e: CustomerErrors)
    ensures e.email.None? <==> EmailMatches(f.email)
    ensures e.password.None? <==> |f.password| >= 6
    ensures e == NoErrors.(email := e.email, password := e.password)
  {
    NoErrors.(email := EmailError(f.email), password := PasswordError(f.password))
  }

  /** The messages the sign-up tab adds to `e`. */
  function SignupErrors(e: CustomerErrors, f: CustomerForm): (r: CustomerErrors)
    ensures r.email == e.email && r.password == e.password
    ensures r.name.None? <==> !Blank(f.name)
    ensures r.phone.None? <==> PhoneMatches(f.phone)
    ensures r.city.None? <==> !Blank(f.city)
    ensures r.area.None? <==> !Blank(f.area)
    ensures r.confirmPassword.None? <==> Truthy(f.confirmPassword) && f.password == f.confirmPassword
    ensures r.terms.None? <==> f.terms
  {
    e.(
      name := RequiredError(f.name, "Full name is required"),
      phone := PhoneError(f.phone),
      city := RequiredError(f.city, "City is required"),
      area := RequiredError(f.area, "Area is required"),
      confirmPassword := ConfirmError(f.password, f.confirmPassword),
      terms := if !f.terms then Some("You must accept the terms") else None)
  }

  /** `validate`: the collected messages, which the screen then shows on
      both tabs. */
  function Validate(tab: Tab, f: CustomerForm): (e: CustomerErrors)
    ensures e.email.None? <==> EmailMatches(f.email)
    ensures e.password.None? <==> |f.password| >= 6
    ensures tab == Login ==> e == NoErrors.(email := e.email, password := e.password)
    ensures tab == Signup ==>
              && (e.name.None? <==> !Blank(f.name)) && (e.phone.None? <==> PhoneMatches(f.phone))
              && (e.city.None? <==> !Blank(f.city)) && (e.area.None? <==> !Blank(f.area))
              && (e.confirmPassword.None? <==> Truthy(f.confirmPassword) && f.password == f.confirmPassword)
              && (e.terms.None? <==> f.terms)
  {
    if tab == Login then CommonErrors(f) else SignupErrors(CommonErrors(f), f)
  }

  predicate Passes(tab: Tab, f: CustomerForm)
  {
    Validate(tab, f) == NoErrors
  }

  /** The e-mail and password rules are the same on both tabs. */
  lemma SameCredentialRules(f: CustomerForm)
    ensures Validate(Login, f).email == Validate(Signup, f).email
    ensures Validate(Login, f).password == Validate(Signup, f).password
  {
  }

  /** Login passes exactly when the e-mail matches the pattern and the
      password has at least six characters; nothing else is looked at. */
  lemma LoginValidIff(f: CustomerForm)
    ensures Passes(Login, f) <==> EmailMatches(f.email) && |f.password| >= 6
  {
    var e := Validate(Login, f);
    assert e == NoErrors <==> e.email.None? && e.password.None?;
  }

  /** Everything sign-up demands. */
  predicate SignupAcceptable(f: CustomerForm)
  {
    && EmailMatches(f.email) && |f.password| >= 6
    && !Blank(f.name) && PhoneMatches(f.phone) && !Blank(f.city) && !Blank(f.area)
    && Truthy(f.confirmPassword) && f.password == f.confirmPassword && f.terms
  }

  lemma SignupValidIff(f: CustomerForm)
    ensures Passes(Signup, f) <==> SignupAcceptable(f)
  {
    var e := Validate(Signup, f);
    assert e == NoErrors <==>
             && e.email.None? && e.password.None? && e.name.None? && e.phone.None?
             && e.city.None? && e.area.None? && e.confirmPassword.None? && e.terms.None?;
  }

  /** `isFormValid`, which enables the submit button. */
  predicate IsFormValid(tab: Tab, f: CustomerForm)
  {
    if tab == Login then Truthy(f.email) && Truthy(f.password) && |f.password| >= 6
    else
      && Truthy(f.name) && Truthy(f.email) && Truthy(f.phone) && Truthy(f.city)
      && Truthy(f.area) && Truthy(f.password) && Truthy(f.confirmPassword)
      && f.password == f.confirmPassword && f.terms
  }

  lemma NotBlankIsTruthy(x: string)
    requires !Blank(x)
    ensures Truthy(x)
  {
  }

  /** A form that passes validation always had its button enabled. */
  lemma ValidImpliesFormValid(tab: Tab, f: CustomerForm)
    requires Passes(tab, f)
    ensures IsFormValid(tab, f)
  {
    if tab == Login {
      LoginValidIff(f);
    } else {
      SignupValidIff(f);
      NotBlankIsTruthy(f.name);
      NotBlankIsTruthy(f.city);
      NotBlankIsTruthy(f.area);
    }
  }

  /** A login form whose address has no '.' after the '@'; a browser's own
      check of an e-mail input lets 'a@b' through. */
  const MalformedLogin := CustomerForm("", "a@b", "secret1", "", "", "", "", "customer", false)

  /** The button check skips the e-mail pattern, so an enabled button does not
      mean the submission is sent. */
  lemma FormValidDoesNotImplyValid()
    ensures IsFormValid(Login, MalformedLogin) && !Passes(Login, MalformedLogin)
  {
    NoDotNoEmail("a@b");
    LoginValidIff(MalformedLogin);
  }

  // ---------------------------------------------------------------------------
  // The request a submission sends
  // ---------------------------------------------------------------------------

  /** The request body. */
  datatype Payload =
    | LoginPayload(email: string, password: string)
    | SignupPayload(name: string, email: string, password: string, role: string, phone: string, location: Location)

  datatype Request = Request(url: string, body: Payload)

  const RegisterUrl := "http://localhost:3000/api/user/register"
  const LoginUrl := "http://localhost:3000/api/auth/login"

  /** The body and address `handleSubmit` posts to. */
  function BuildRequest(tab: Tab, f: CustomerForm): (r: Request)
    ensures tab == Login ==> r.url == LoginUrl && r.body.LoginPayload?
    ensures tab == Signup ==> r.url == RegisterUrl && r.body.SignupPayload? && r.body.role == "customer"
    ensures r.body.email == f.email && r.body.password == f.password
  {
    if tab == Signup then
      Request(RegisterUrl, SignupPayload(f.name, f.email, f.password, "customer", f.phone, Location(f.city, f.area)))
    else
      Request(LoginUrl, LoginPayload(f.email, f.password))
  }

  /** `handleSubmit`: nothing is sent unless validation passes. */
  function Submit(tab: Tab, f: CustomerForm): (r: Option<Request>)
    ensures r.Some? <==> Passes(tab, f)
    ensures r.Some? ==> r.value == BuildRequest(tab, f)
  {
    if Passes(tab, f) then Some(BuildRequest(tab, f)) else None
  }

  /** The login body is the same whatever the sign-up fields hold. */
  lemma LoginBodyOnlyCredentials(f: CustomerForm, g: CustomerForm)
    requires f.email == g.email && f.password == g.password
    ensures BuildRequest(Login, f) == BuildRequest(Login, g)
  {
  }

  /** The role the form holds never reaches the request. */
  lemma RoleIsAlwaysCustomer(tab: Tab, f: CustomerForm, role: string)
    ensures BuildRequest(tab, f.(role := role)) == BuildRequest(tab, f)
  {
  }

  /** A sign-up request that is sent carries every field of the form, with
      the city and area nested under the location, all of them filled in. */
  lemma SentSignupCarriesForm(f: CustomerForm)
    requires Submit(Signup, f).Some?
    ensures Submit(Signup, f).value.body ==
              SignupPayload(f.name, f.email, f.password, "customer", f.phone, Location(f.city, f.area))
    ensures !Blank(f.name) && !Blank(f.city) && !Blank(f.area) && PhoneMatches(f.phone)
  {
    SignupValidIff(f);
  }
}

=== FILE: dashboard.dfy ===
/** The provider's profile page: a committed profile and an editable draft,
    field edits and the status toggle on the draft, validation, cancel
    (draft back to the profile) and submit (profile becomes the draft). */
module Dashboard {
  import opened Base
  import opened JsText

  datatype Profile = Profile(
    name: string,
    serviceCategory: string,
    description: string,
    basePrice: string,
    location: string,
    availability: string,
    status: string)

  datatype Field =
    NameField | CategoryField | DescriptionField | BasePriceField | LocationField | AvailabilityField | StatusField

  function Get(p: Profile, f: Field): string
  {
    match f
    case NameField => p.name
    case CategoryField => p.serviceCategory
    case DescriptionField => p.description
    case BasePriceField => p.basePrice
    case LocationField => p.location
    case AvailabilityField => p.availability
    case StatusField => p.status
  }

  /** `{ ...prev, [name]: value }` on the draft. */
  function Set(p: Profile, f: Field, v: string): (r: Profile)
    ensures Get(r, f) == v
    ensures forall g :: g != f ==> Get(r, g) == Get(p, g)
  {
    match f
    case NameField => p.(name := v)
    case CategoryField => p.(serviceCategory := v)
    case DescriptionField => p.(description := v)
    case BasePriceField => p.(basePrice := v)
    case LocationField => p.(location := v)
    case AvailabilityField => p.(availability := v)
    case StatusField => p.(status := v)
  }

  /** Two profiles with the same value in every field are the same profile. */
  lemma ProfileExtensionality(p: Profile, q: Profile)
    requires forall f :: Get(p, f) == Get(q, f)
    ensures p == q
  {
    assert Get(p, NameField) == Get(q, NameField) && Get(p, CategoryField) == Get(q, CategoryField);
    assert Get(p, DescriptionField) == Get(q, DescriptionField) && Get(p, BasePriceField) == Get(q, BasePriceField);
    assert Get(p, LocationField) == Get(q, LocationField) && Get(p, AvailabilityField) == Get(q, AvailabilityField);
    assert Get(p, StatusField) == Get(q, StatusField);
  }

  /** The `errors` object: a field has a message exactly when the object has
      that key. The status has no message. */
  datatype ProfileErrors = ProfileErrors(
    name: Option<string>,
    serviceCategory: Option<string>,
    description: Option<string>,
    basePrice: Option<string>,
    location: Option<string>,
    availability: Option<string>)

  const NoErrors := ProfileErrors(None, None, None, None, None, None)

  function ErrorOf(e: ProfileErrors, f: Field): Option<string>
  {
    match f
    case NameField => e.name
    case CategoryField => e.serviceCategory
    case DescriptionField => e.description
    case BasePriceField => e.basePrice
    case LocationField => e.location
    case AvailabilityField => e.availability
    case StatusField => None
  }

  /** `{ ...prev, [name]: '' }` on the errors. */
  function ClearError(e: ProfileErrors, f: Field): (r: ProfileErrors)
    ensures f != StatusField ==> ErrorOf(r, f) == Some("")
    ensures forall g :: g != f ==> ErrorOf(r, g) == ErrorOf(e, g)
  {
    match f
    case NameField => e.(name := Some(""))
    case CategoryField => e.(serviceCategory := Some(""))
    case DescriptionField => e.(description := Some(""))
    case BasePriceField => e.(basePrice := Some(""))
    case LocationField => e.(location := Some(""))
    case AvailabilityField => e.(availability := Some(""))
    case StatusField => e
  }

  function RequiredText(x: string, message: string): (r: Option<string>)
    ensures r.Some? <==> Blank(x)
  {
    if Blank(x) then Some(message) else None
  }

  /** `validate`: name, description, price, location and availability must
      not be blank and a category must be chosen. The price is only checked
      for presence. */
  function Validate(d: Profile): (errors: ProfileErrors)
    ensures errors.name.Some? <==> Blank(d.name)
    ensures errors.serviceCategory.Some? <==> !Truthy(d.serviceCategory)
    ensures errors.description.Some? <==> Blank(d.description)
    ensures errors.basePrice.Some? <==> Blank(d.basePrice)
    ensures errors.location.Some? <==> Blank(d.location)
    ensures errors.availability.Some? <==> Blank(d.availability)
  {
    ProfileErrors(
      RequiredText(d.name, "Provider name is required"),
      if !Truthy(d.serviceCategory) then Some("Please select a service category") else None,
      RequiredText(d.description, "Service description is required"),
      RequiredText(d.basePrice, "Base price is required"),
      RequiredText(d.location, "Service area / location is required"),
      RequiredText(d.availability, "Availability schedule is required"))
  }

  predicate ProfileValid(d: Profile)
  {
    && !Blank(d.name) && Truthy(d.serviceCategory) && !Blank(d.description)
    && !Blank(d.basePrice) && !Blank(d.location) && !Blank(d.availability)
  }

  lemma ValidateIff(d: Profile)
    ensures Validate(d) == NoErrors <==> ProfileValid(d)
  {
    var e := Validate(d);
    assert e == NoErrors <==>
             && e.name.None? && e.serviceCategory.None? && e.description.None?
             && e.basePrice.None? && e.location.None? && e.availability.None?;
  }

  /** Any non-blank price passes: the outcome does not depend on whether it
      reads as a number. */
  lemma PriceIsNotNumeric(d: Profile, x: string, y: string)
    requires !Blank(x) && !Blank(y)
    ensures Validate(d.(basePrice := x)) == Validate(d.(basePrice := y))
  {
  }

  /** The page's state. */
  datatype Page = Page(
    profile: Profile,
    draft: Profile,
    errors: ProfileErrors,
    successMessage: string,
    errorMessage: string)

  /** `JSON.stringify(profile) !== JSON.stringify(draft)`: both objects have
      the same keys in the same order, so this is inequality of the records. */
  predicate HasUnsavedChanges(pg: Page)
  {
    pg.profile != pg.draft
  }

  /** There are unsaved changes exactly when some field of the draft differs
      from the committed profile. */
  lemma UnsavedIffFieldDiffers(pg: Page)
    ensures HasUnsavedChanges(pg) <==> exists f :: Get(pg.profile, f) != Get(pg.draft, f)
  {
    if forall f :: Get(pg.profile, f) == Get(pg.draft, f) {
      ProfileExtensionality(pg.profile, pg.draft);
    }
  }

  /** `handleFieldChange`: the draft field takes the value, and a shown
      message on that field is blanked. The committed profile is untouched. */
  function FieldChange(pg: Page, f: Field, v: string): (r: Page)
    ensures r.profile == pg.profile
    ensures Get(r.draft, f) == v
    ensures forall g :: g != f ==> Get(r.draft, g) == Get(pg.draft, g)
    ensures forall g :: g != f ==> ErrorOf(r.errors, g) == ErrorOf(pg.errors, g)
    ensures r.successMessage == pg.successMessage && r.errorMessage == pg.errorMessage
  {
    var shown := ErrorOf(pg.errors, f);
    var errors := if shown.Some? && Truthy(shown.value) then ClearError(pg.errors, f) else pg.errors;
    pg.(draft := Set(pg.draft, f, v), errors := errors)
  }

  /** `toggleStatus`: 'active' becomes 'inactive' and anything else becomes 'active'. */
  function ToggleStatus(pg: Page): (r: Page)
    ensures r.profile == pg.profile && r.errors == pg.errors
    ensures forall g :: g != StatusField ==> Get(r.draft, g) == Get(pg.draft, g)
    ensures pg.draft.status == "active" ==> r.draft.status == "inactive"
    ensures pg.draft.status != "active" ==> r.draft.status == "active"
  {
    pg.(draft := pg.draft.(status := if pg.draft.status == "active" then "inactive" else "active"))
  }

  /** Toggling twice gives the draft back when its status is one of the two values. */
  lemma ToggleTwice(pg: Page)
    requires pg.draft.status == "active" || pg.draft.status == "inactive"
    ensures ToggleStatus(ToggleStatus(pg)) == pg
  {
    var r := ToggleStatus(ToggleStatus(pg));
    ProfileExtensionality(r.draft, pg.draft);
  }

  /** `handleCancel`: the draft is the profile again and every message goes. */
  function Cancel(pg: Page): (r: Page)
    ensures !HasUnsavedChanges(r)
    ensures r.profile == pg.profile && r.errors == NoErrors
    ensures r.successMessage == "" && r.errorMessage == ""
  {
    Page(pg.profile, pg.profile, NoErrors, "", "")
  }

  /** Edits followed by cancel leave the page with the committed profile. */
  lemma EditThenCancel(pg: Page, f: Field, v: string)
    ensures Cancel(FieldChange(pg, f, v)) == Cancel(pg)
  {
  }

  /** `handleSubmit`: messages are cleared; a draft that fails validation
      only shows its errors, a valid one becomes the profile. */
  function Submit(pg: Page): (r: Page)
    ensures r.draft == pg.draft && r.errors == Validate(pg.draft) && r.errorMessage == ""
    ensures !ProfileValid(pg.draft) ==> r.profile == pg.profile && r.successMessage == ""
    ensures ProfileValid(pg.draft) ==>
              r.profile == pg.draft && !HasUnsavedChanges(r) && r.successMessage == "Profile updated successfully."
  {
    ValidateIff(pg.draft);
    var errors := Validate(pg.draft);
    var cleared := pg.(errors := errors, successMessage := "", errorMessage := "");
    if errors != NoErrors then cleared
    else cleared.(profile := pg.draft, successMessage := "Profile updated successfully.")
  }

  /** A draft edited away from the committed value is an unsaved change. */
  lemma EditShowsUnsavedChange(pg: Page, f: Field, v: string)
    requires pg.profile == pg.draft && v != Get(pg.profile, f)
    ensures HasUnsavedChanges(FieldChange(pg, f, v))
  {
  }
}

=== FILE: discovery.dfy ===
/** The customer's provider search: three optional filters (category,
    location, keywords) applied conjunctively to the provider list, and the
    label shown for a category slug. */
module Discovery {
  import opened Base
  import opened JsText

  datatype Provider = Provider(
    id: string,
    name: string,
    primaryService: string,
    category: string,
    location: string,
    shortBio: string,
    serviceNames: seq<string>)

  /** The search form; an empty string means the filter is off. */
  datatype SearchFilters = SearchFilters(category: string, location: string, keywords: string)

  const NoFilters := SearchFilters("", "", "")

  predicate CategoryPasses(f: SearchFilters, p: Provider)
  {
    !Truthy(f.category) || p.category == f.category
  }

  /** The location query, trimmed and lower-cased, is part of the lower-cased location. */
  predicate LocationPasses(f: SearchFilters, p: Provider)
  {
    !Truthy(f.location) || Includes(Lower(p.location), Lower(Trim(f.location)))
  }

  /** The fields a keyword search looks at, in the order they are joined. */
  function SearchedFields(p: Provider): seq<string>
  {
    [p.name, p.primaryService, p.shortBio, p.location] + p.serviceNames
  }

  /** The searched fields joined with single spaces and lower-cased. */
  function Haystack(p: Provider): string
  {
    Lower(Join(SearchedFields(p), " "))
  }

  predicate KeywordsPass(f: SearchFilters, p: Provider)
  {
    !Truthy(f.keywords) || Includes(Haystack(p), Lower(Trim(f.keywords)))
  }

  predicate Matches(f: SearchFilters, p: Provider)
  {
    CategoryPasses(f, p) && LocationPasses(f, p) && KeywordsPass(f, p)
  }

  /** `filteredProviders`: the providers passing every filter, in their original order. */
  function FilteredProviders(providers: seq<Provider>, f: SearchFilters): (r: seq<Provider>)
    ensures IsSubsequence(r, providers)
    ensures forall i :: 0 <= i < |r| ==> Matches(f, r[i])
    ensures forall i :: 0 <= i < |providers| && Matches(f, providers[i]) ==> providers[i] in r
    ensures forall p :: multiset(r)[p] == if Matches(f, p) then multiset(providers)[p] else 0
  {
    Filter((p: Provider) => Matches(f, p), providers)
  }

  /** A provider matches exactly when it passes each filter that is switched
      on: the chosen category is its category, and the trimmed, lower-cased
      location and keyword queries occur in its lower-cased location and in
      its joined, lower-cased searched fields. */
  lemma MatchesIff(f: SearchFilters, p: Provider)
    ensures Matches(f, p) <==>
              && (Truthy(f.category) ==> p.category == f.category)
              && (Truthy(f.location) ==> exists k :: OccursAt(Lower(p.location), Lower(Trim(f.location)), k))
              && (Truthy(f.keywords) ==> exists k :: OccursAt(Haystack(p), Lower(Trim(f.keywords)), k))
  {
    IncludesIffSlice(Lower(p.location), Lower(Trim(f.location)));
    IncludesIffSlice(Haystack(p), Lower(Trim(f.keywords)));
  }

  /** With every filter empty the whole list comes back. */
  lemma NoFiltersKeepAll(providers: seq<Provider>)
    ensures FilteredProviders(providers, NoFilters) == providers
  {
    FilterAll((p: Provider) => Matches(NoFilters, p), providers);
  }

  /** With a category chosen, every result has exactly that category. */
  lemma CategoryIsExact(providers: seq<Provider>, f: SearchFilters)
    requires Truthy(f.category)
    ensures forall i :: 0 <= i < |FilteredProviders(providers, f)| ==>
              FilteredProviders(providers, f)[i].category == f.category
  {
  }

  /** An active location filter passes exactly when the trimmed, lower-cased
      query occurs somewhere in the lower-cased location. */
  lemma LocationIff(f: SearchFilters, p: Provider)
    requires Truthy(f.location)
    ensures LocationPasses(f, p) <==> exists k :: OccursAt(Lower(p.location), Lower(Trim(f.location)), k)
  {
    IncludesIffSlice(Lower(p.location), Lower(Trim(f.location)));
  }

  /** A location query of white space only lets every provider through. */
  lemma BlankLocationMatchesAll(f: SearchFilters, p: Provider)
    requires Blank(f.location)
    ensures LocationPasses(f, p)
  {
    IncludesEmpty(Lower(p.location));
  }

  /** Each joined part is a contiguous piece of the joined string. */
  lemma {:induction false} JoinContainsPart(parts: seq<string>, i: int, sep: string)
    requires 0 <= i < |parts|
    ensures exists a, c :: Join(parts, sep) == a + parts[i] + c
    decreases |parts|
  {
    if |parts| == 1 {
      assert Join(parts, sep) == "" + parts[0] + "";
    } else if i == 0 {
      assert Join(parts, sep) == "" + parts[0] + (sep + Join(parts[1..], sep));
    } else {
      JoinContainsPart(parts[1..], i - 1, sep);
      var a, c :| Join(parts[1..], sep) == a + parts[1..][i - 1] + c;
      assert Join(parts, sep) == (parts[0] + sep + a) + parts[i] + c;
    }
  }

  /** A keyword that occurs (after trimming and lower-casing) in any one
      searched field finds the provider. */
  lemma KeywordInOneField(f: SearchFilters, p: Provider, i: int)
    requires 0 <= i < |SearchedFields(p)|
    requires Includes(Lower(SearchedFields(p)[i]), Lower(Trim(f.keywords)))
    ensures KeywordsPass(f, p)
  {
    var fields := SearchedFields(p);
    JoinContainsPart(fields, i, " ");
    var a, c :| Join(fields, " ") == a + fields[i] + c;
    LowerConcat(a + fields[i], c);
    LowerConcat(a, fields[i]);
    IncludesInfix(Lower(a), Lower(fields[i]), Lower(c), Lower(Trim(f.keywords)));
  }

  /** `tighter` switches on filters that `loose` leaves empty and agrees with
      it everywhere else. */
  predicate Tightens(tighter: SearchFilters, loose: SearchFilters)
  {
    && (loose.category == "" || loose.category == tighter.category)
    && (loose.location == "" || loose.location == tighter.location)
    && (loose.keywords == "" || loose.keywords == tighter.keywords)
  }

  /** The filters are conjunctive: switching one on never adds a provider,
      and the results stay in the same relative order. */
  lemma TighterFiltersKeepFewer(providers: seq<Provider>, tighter: SearchFilters, loose: SearchFilters)
    requires Tightens(tighter, loose)
    ensures IsSubsequence(FilteredProviders(providers, tighter), FilteredProviders(providers, loose))
  {
    var strict, lax := (p: Provider) => Matches(tighter, p), (p: Provider) => Matches(loose, p);
    forall p: Provider
      ensures strict(p) ==> lax(p)
    {
      TightenedMatch(tighter, loose, p);
    }
    FilterMonotone(strict, lax, providers);
    assert FilteredProviders(providers, tighter) == Filter(strict, providers);
    assert FilteredProviders(providers, loose) == Filter(lax, providers);
  }

  /** A provider matching the tighter filters matches the looser ones. */
  lemma TightenedMatch(tighter: SearchFilters, loose: SearchFilters, p: Provider)
    requires Tightens(tighter, loose)
    ensures Matches(tighter, p) ==> Matches(loose, p)
  {
  }

  // ---------------------------------------------------------------------------
  // Category labels
  // ---------------------------------------------------------------------------

  /** `w.charAt(0).toUpperCase() + w.slice(1)`. */
  function Capitalize(w: string): string
  {
    if |w| == 0 then "" else [UpperChar(w[0])] + w[1..]
  }

  function CapitalizeAll(parts: seq<string>): (r: seq<string>)
    ensures |r| == |parts|
    ensures forall i :: 0 <= i < |parts| ==> r[i] == Capitalize(parts[i])
  {
    seq(|parts|, i requires 0 <= i < |parts| => Capitalize(parts[i]))
  }

  /** The label character at position `i` of slug `s`: a '-' shows as a
      space, the first character of the slug and any character right after
      a '-' is upper-cased, everything else is kept. */
  function LabelChar(s: string, i: int): char
    requires 0 <= i < |s|
  {
    if s[i] == '-' then ' '
    else if i == 0 || s[i - 1] == '-' then UpperChar(s[i])
    else s[i]
  }

  /** The character a slug's position `i` shows as, `atStart` telling whether
      the slug starts a word. */
  function DirectChar(s: string, i: int, atStart: bool): char
    requires 0 <= i < |s|
  {
    if s[i] == '-' then ' '
    else if (i == 0 && atStart) || (i > 0 && s[i - 1] == '-') then UpperChar(s[i])
    else s[i]
  }

  /** A one-pass rewrite of a slug: '-' becomes ' ' and a character starting
      a word is upper-cased. */
  function Direct(s: string, atStart: bool): (r: string)
    ensures |r| == |s|
    ensures forall i :: 0 <= i < |s| ==> r[i] == DirectChar(s, i, atStart)
  {
    if |s| == 0 then ""
    else
      var head := if s[0] == '-' then ' ' else if atStart then UpperChar(s[0]) else s[0];
      var rest := Direct(s[1..], s[0] == '-');
      var r := [head] + rest;
      assert forall i :: 1 <= i < |s| ==> r[i] == DirectChar(s, i, atStart) by {
        forall i | 1 <= i < |s|
          ensures r[i] == DirectChar(s, i, atStart)
        {
          assert r[i] == rest[i - 1] == DirectChar(s[1..], i - 1, s[0] == '-');
          assert s[1..][i - 1] == s[i];
          if i > 1 {
            assert s[1..][i - 2] == s[i - 1];
          }
        }
      }
      r
  }

  /** The parts joined with spaces, the first one capitalized only when `capFirst`. */
  function Render(parts: seq<string>, capFirst: bool): string
    requires |parts| >= 1
  {
    Join([if capFirst then Capitalize(parts[0]) else parts[0]] + CapitalizeAll(parts[1..]), " ")
  }

  lemma JoinPrepend(c: char, a: string, rest: seq<string>)
    ensures Join([[c] + a] + rest, " ") == [c] + Join([a] + rest, " ")
  {
    if |rest| > 0 {
      assert ([[c] + a] + rest)[1..] == rest == ([a] + rest)[1..];
    }
  }

  /** Splitting at '-', capitalizing and joining with ' ' is the one-pass rewrite. */
  lemma {:induction false} RenderSplit(s: string, atStart: bool)
    ensures Render(Split(s, '-'), atStart) == Direct(s, atStart)
    decreases |s|
  {
    if |s| > 0 {
      var rest := Split(s[1..], '-');
      RenderSplit(s[1..], s[0] == '-');
      if s[0] == '-' {
        var parts := [""] + rest;
        assert parts[1..] == rest;
        var caps := CapitalizeAll(rest);
        assert caps == [Capitalize(rest[0])] + CapitalizeAll(rest[1..]);
        assert Render(parts, atStart) == Join([""] + caps, " ");
        assert ([""] + caps)[1..] == caps;
      } else {
        var parts := [[s[0]] + rest[0]] + rest[1..];
        assert parts[1..] == rest[1..];
        var c := if atStart then UpperChar(s[0]) else s[0];
        var first := if atStart then Capitalize(parts[0]) else parts[0];
        assert first == [c] + rest[0];
        JoinPrepend(c, rest[0], CapitalizeAll(rest[1..]));
      }
    }
  }

  /** `formatCategoryLabel`: '' for an empty slug; otherwise each '-' becomes a
      space and each word starts with an upper-case letter. */
  function FormatCategoryLabel(value: string): (r: string)
    ensures !Truthy(value) ==> r == ""
    ensures |r| == |value|
    ensures forall i :: 0 <= i < |value| ==> r[i] == LabelChar(value, i)
  {
    if !Truthy(value) then ""
    else
      var parts := Split(value, '-');
      assert CapitalizeAll(parts) == [Capitalize(parts[0])] + CapitalizeAll(parts[1..]);
      RenderSplit(value, true);
      Join(CapitalizeAll(parts), " ")
  }
}

=== FILE: formrules.dfy ===
/** The field rules both sign-in screens share: the e-mail pattern
    `^[^\s@]+@[^\s@]+\.[^\s@]+$`, the phone pattern `^[0-9]{10,15}$`, and
    the password length, with the messages each check produces. */
module FormRules {
  import opened Base
  import opened JsText

  /** A character of the class `[^\s@]`. */
  predicate EmailChar(c: char)
  {
    !IsWhiteSpace(c) && c != '@'
  }

  /** A non-empty run of `[^\s@]`. */
  predicate EmailRun(s: string)
  {
    |s| > 0 && forall i :: 0 <= i < |s| ==> EmailChar(s[i])
  }

  /** The three runs of the e-mail pattern, split at the '@' at index `at`
      and the '.' at index `dot`. */
  predicate EmailSplit(s: string, at: int, dot: int)
  {
    && 0 <= at < dot < |s|
    && s[at] == '@' && s[dot] == '.'
    && EmailRun(s[..at]) && EmailRun(s[at + 1..dot]) && EmailRun(s[dot + 1..])
  }

  /** `emailRegex.test(s)`: some choice of '@' and '.' splits `s` into three runs. */
  predicate EmailMatches(s: string)
  {
    exists at, dot :: 0 <= at < dot < |s| && EmailSplit(s, at, dot)
  }

  /** A matching address contains exactly one '@' and no white space. */
  lemma EmailShape(s: string)
    requires EmailMatches(s)
    ensures |s| >= 5
    ensures forall i :: 0 <= i < |s| ==> !IsWhiteSpace(s[i])
    ensures exists at :: 0 < at < |s| && s[at] == '@' && forall i :: 0 <= i < |s| && i != at ==> s[i] != '@'
  {
    var at, dot :| 0 <= at < dot < |s| && EmailSplit(s, at, dot);
    assert EmailRun(s[..at]) && EmailRun(s[at + 1..dot]) && EmailRun(s[dot + 1..]);
    forall i | 0 <= i < |s|
      ensures !IsWhiteSpace(s[i]) && (i != at ==> s[i] != '@')
    {
      if i < at {
        assert s[i] == s[..at][i];
      } else if at < i < dot {
        assert s[i] == s[at + 1..dot][i - at - 1];
      } else if dot < i {
        assert s[i] == s[dot + 1..][i - dot - 1];
      }
    }
  }

  /** Without an '@' an address never matches. */
  lemma NoAtNoEmail(s: string)
    requires '@' !in s
    ensures !EmailMatches(s)
  {
    forall at, dot | 0 <= at < dot < |s|
      ensures !EmailSplit(s, at, dot)
    {
      assert s[at] in s;
    }
  }

  /** Without a '.' an address never matches. */
  lemma NoDotNoEmail(s: string)
    requires '.' !in s
    ensures !EmailMatches(s)
  {
    forall at, dot | 0 <= at < dot < |s|
      ensures !EmailSplit(s, at, dot)
    {
      assert s[dot] in s;
    }
  }

  /** `phoneRegex.test(s)`: ten to fifteen ASCII digits and nothing else. */
  predicate PhoneMatches(s: string)
  {
    10 <= |s| <= 15 && forall i :: 0 <= i < |s| ==> '0' <= s[i] <= '9'
  }

  /** The e-mail check: required, then the pattern. */
  function EmailError(email: string): (r: Option<string>)
    ensures r.None? <==> EmailMatches(email)
    ensures !Truthy(email) ==> r == Some("Email is required")
    ensures Truthy(email) && !EmailMatches(email) ==> r == Some("Please enter a valid email")
  {
    if !Truthy(email) then Some("Email is required")
    else if !EmailMatches(email) then Some("Please enter a valid email")
    else None
  }

  /** The password check: required, then at least six characters. */
  function PasswordError(password: string): (r: Option<string>)
    ensures r.None? <==> |password| >= 6
    ensures !Truthy(password) ==> r == Some("Password is required")
    ensures Truthy(password) && |password| < 6 ==> r == Some("Password must be at least 6 characters")
  {
    if !Truthy(password) then Some("Password is required")
    else if |password| < 6 then Some("Password must be at least 6 characters")
    else None
  }

  /** The phone check of the sign-up forms: required, then the pattern. */
  function PhoneError(phone: string): (r: Option<string>)
    ensures r.None? <==> PhoneMatches(phone)
    ensures !Truthy(phone) ==> r == Some("Phone number is required")
    ensures Truthy(phone) && !PhoneMatches(phone) ==> r == Some("Please enter a valid phone number")
  {
    if !Truthy(phone) then Some("Phone number is required")
    else if !PhoneMatches(phone) then Some("Please enter a valid phone number")
    else None
  }

  /** The confirmation check: required, then equal to the password. */
  function ConfirmError(password: string, confirm: string): (r: Option<string>)
    ensures r.None? <==> Truthy(confirm) && password == confirm
    ensures !Truthy(confirm) ==> r == Some("Please confirm your password")
  {
    if !Truthy(confirm) then Some("Please confirm your password")
    else if password != confirm then Some("Passwords do not match")
    else None
  }

  /** A required text field: a message when it is blank after trimming. */
  function RequiredError(x: string, message: string): (r: Option<string>)
    ensures r.None? <==> !Blank(x)
    ensures Blank(x) ==> r == Some(message)
  {
    if Blank(x) then Some(message) else None
  }

  /** A short address that matches, one without '@' and one without a '.'
      after the '@' that do not. */
  lemma EmailExamples()
    ensures EmailMatches("a@b.co")
    ensures !EmailMatches("abc")
    ensures !EmailMatches("a@b")
  {
    NoDotNoEmail("a@b");
    var s := "a@b.co";
    assert s[..1] == "a" && s[2..3] == "b" && s[4..] == "co";
    assert EmailSplit(s, 1, 3);
    NoAtNoEmail("abc");
  }
}

=== FILE: jstext.dfy ===
/** The JavaScript string operations the application relies on, stated over
    `string` (a sequence of characters): `trim`, truthiness, ASCII case
    mapping, `includes`, `split`/`join` on one separator character, and the
    `<` comparison of two strings. */
module JsText {

  /** The characters `String.prototype.trim` removes and the regular-expression
      class `\s` matches: ECMAScript WhiteSpace and LineTerminator. Below U+00A0
      these are the space and the five controls tab, line feed, vertical tab,
      form feed and carriage return. */
  predicate IsWhiteSpace(c: char)
  {
    if c <= ' ' then c == ' ' || ('\t' <= c <= '\r')
    else '\U{00A0}' <= c && IsWideWhiteSpace(c)
  }

  /** The white-space characters from U+00A0 upwards. */
  predicate IsWideWhiteSpace(c: char)
  {
    || c == '\U{00A0}' || c == '\U{1680}'
    || ('\U{2000}' <= c <= '\U{200A}')
    || c == '\U{2028}' || c == '\U{2029}' || c == '\U{202F}' || c == '\U{205F}'
    || c == '\U{3000}' || c == '\U{FEFF}'
  }

  predicate NoWhiteSpace(s: string)
  {
    forall i :: 0 <= i < |s| ==> !IsWhiteSpace(s[i])
  }

  /** A string is truthy in JavaScript exactly when it is not empty. */
  predicate Truthy(s: string)
  {
    |s| > 0
  }

  /** `s.trimStart()`: drops the leading white space. */
  function TrimStart(s: string): string
  {
    if |s| > 0 && IsWhiteSpace(s[0]) then TrimStart(s[1..]) else s
  }

  /** What `TrimStart` keeps is a suffix that does not start with white
      space, and everything it drops is white space. */
  lemma {:induction false} TrimStartFacts(s: string)
    ensures |TrimStart(s)| <= |s| && TrimStart(s) == s[|s| - |TrimStart(s)|..]
    ensures |TrimStart(s)| > 0 ==> !IsWhiteSpace(TrimStart(s)[0])
    ensures forall i :: 0 <= i < |s| - |TrimStart(s)| ==> IsWhiteSpace(s[i])
  {
    if |s| > 0 && IsWhiteSpace(s[0]) {
      TrimStartFacts(s[1..]);
      var r := TrimStart(s[1..]);
      forall i | 0 <= i < |s| - |r|
        ensures IsWhiteSpace(s[i])
      {
        if i > 0 {
          assert s[i] == s[1..][i - 1];
        }
      }
    }
  }

  function TrimEnd(s: string): (r: string)
    ensures |r| <= |s| && r == s[..|r|]
    ensures |r| > 0 ==> !IsWhiteSpace(r[|r| - 1])
    ensures forall i :: |r| <= i < |s| ==> IsWhiteSpace(s[i])
  {
    if |s| > 0 && IsWhiteSpace(s[|s| - 1]) then TrimEnd(s[..|s| - 1]) else s
  }

  /** `s.trim()`: the longest infix of `s` that neither starts nor ends with white space. */
  function Trim(s: string): (r: string)
    ensures |r| <= |s|
    ensures |r| > 0 ==> !IsWhiteSpace(r[0]) && !IsWhiteSpace(r[|r| - 1])
    ensures OccursAt(s, r, |s| - |TrimStart(s)|)
    ensures forall i :: 0 <= i < |s| - |TrimStart(s)| ==> IsWhiteSpace(s[i])
    ensures forall i :: |s| - |TrimStart(s)| + |r| <= i < |s| ==> IsWhiteSpace(s[i])
  {
    TrimStartFacts(s);
    var t := TrimStart(s);
    var r := TrimEnd(t);
    assert r == s[|s| - |t|..|s| - |t| + |r|];
    assert forall i :: |s| - |t| + |r| <= i < |s| ==> s[i] == t[i - (|s| - |t|)];
    r
  }

  /** `!s.trim()`: the field is empty or holds only white space. */
  predicate Blank(s: string)
  {
    Trim(s) == ""
  }

  lemma BlankIffAllWhiteSpace(s: string)
    ensures Blank(s) <==> forall i :: 0 <= i < |s| ==> IsWhiteSpace(s[i])
  {
    TrimStartFacts(s);
    var t := TrimStart(s);
    if !forall i :: 0 <= i < |s| ==> IsWhiteSpace(s[i]) {
      var j :| 0 <= j < |s| && !IsWhiteSpace(s[j]);
      assert |t| > 0 && |s| - |t| <= j;
      assert !IsWhiteSpace(t[j - (|s| - |t|)]);
    }
  }

  /** Trimming a string without leading or trailing white space leaves it as it is. */
  lemma TrimOfTrimmed(s: string)
    requires |s| > 0 ==> !IsWhiteSpace(s[0]) && !IsWhiteSpace(s[|s| - 1])
    ensures Trim(s) == s
  {
  }

  function LowerChar(c: char): char
  {
    if 'A' <= c <= 'Z' then (c as int - 'A' as int + 'a' as int) as char else c
  }

  function UpperChar(c: char): char
  {
    if 'a' <= c <= 'z' then (c as int - 'a' as int + 'A' as int) as char else c
  }

  /** `s.toLowerCase()`, restricted to the ASCII letters. */
  function Lower(s: string): (r: string)
    ensures |r| == |s|
    ensures forall i :: 0 <= i < |s| ==> r[i] == LowerChar(s[i])
  {
    seq(|s|, i requires 0 <= i < |s| => LowerChar(s[i]))
  }

  lemma LowerConcat(a: string, b: string)
    ensures Lower(a + b) == Lower(a) + Lower(b)
  {
  }

  predicate StartsWith(s: string, prefix: string)
  {
    |prefix| <= |s| && s[..|prefix|] == prefix
  }

  /** `needle` appears in `hay` starting at index `k`. */
  predicate OccursAt(hay: string, needle: string, k: int)
  {
    0 <= k && k + |needle| <= |hay| && hay[k..k + |needle|] == needle
  }

  /** `hay.includes(needle)`: `needle` occurs somewhere inside `hay`. */
  predicate Includes(hay: string, needle: string)
    decreases |hay|
  {
    StartsWith(hay, needle) || (|hay| > 0 && Includes(hay[1..], needle))
  }

  /** `Includes` holds exactly when `needle` is a contiguous slice of `hay`. */
  lemma {:induction false} IncludesIffSlice(hay: string, needle: string)
    ensures Includes(hay, needle) <==> exists k :: OccursAt(hay, needle, k)
    decreases |hay|
  {
    if StartsWith(hay, needle) {
      assert OccursAt(hay, needle, 0);
    }
    if |hay| > 0 {
      IncludesIffSlice(hay[1..], needle);
      if Includes(hay[1..], needle) {
        var k :| OccursAt(hay[1..], needle, k);
        assert hay[k + 1..k + 1 + |needle|] == hay[1..][k..k + |needle|];
        assert OccursAt(hay, needle, k + 1);
      }
      if exists k :: OccursAt(hay, needle, k) {
        var k :| OccursAt(hay, needle, k);
        if k > 0 {
          assert hay[1..][k - 1..k - 1 + |needle|] == hay[k..k + |needle|];
          assert OccursAt(hay[1..], needle, k - 1);
        } else {
          assert StartsWith(hay, needle);
        }
      }
    } else if exists k :: OccursAt(hay, needle, k) {
      var k :| OccursAt(hay, needle, k);
      assert k == 0 && StartsWith(hay, needle);
    }
  }

  /** Whatever one string contains, any string around it contains too. */
  lemma IncludesInfix(a: string, b: string, c: string, needle: string)
    requires Includes(b, needle)
    ensures Includes(a + b + c, needle)
  {
    IncludesIffSlice(b, needle);
    var k :| OccursAt(b, needle, k);
    assert (a + b + c)[|a| + k..|a| + k + |needle|] == b[k..k + |needle|];
    assert OccursAt(a + b + c, needle, |a| + k);
    IncludesIffSlice(a + b + c, needle);
  }

  lemma IncludesEmpty(hay: string)
    ensures Includes(hay, "")
  {
  }

  /** `s.split(sep)` for a one-character separator: never empty, and `""` splits to `[""]`. */
  function Split(s: string, sep: char): (parts: seq<string>)
    ensures |parts| >= 1
  {
    if |s| == 0 then [""]
    else
      var rest := Split(s[1..], sep);
      if s[0] == sep then [""] + rest
      else [[s[0]] + rest[0]] + rest[1..]
  }

  /** No piece of a split contains the separator. */
  lemma {:induction false} SplitPartsAvoidSeparator(s: string, sep: char)
    ensures forall k :: 0 <= k < |Split(s, sep)| ==> sep !in Split(s, sep)[k]
  {
    if |s| > 0 {
      SplitPartsAvoidSeparator(s[1..], sep);
      var rest := Split(s[1..], sep);
      if s[0] != sep {
        var parts := [[s[0]] + rest[0]] + rest[1..];
        forall k | 0 <= k < |parts|
          ensures sep !in parts[k]
        {
          if k > 0 {
            assert parts[k] == rest[k];
          }
        }
      } else {
        assert forall k :: 1 <= k < |[""] + rest| ==> ([""] + rest)[k] == rest[k - 1];
      }
    }
  }

  /** A string without the separator splits into itself alone. */
  lemma {:induction false} SplitWithoutSeparator(s: string, sep: char)
    requires sep !in s
    ensures Split(s, sep) == [s]
  {
    if |s| > 0 {
      assert sep !in s[1..];
      SplitWithoutSeparator(s[1..], sep);
      assert [s[0]] + s[1..] == s;
    }
  }

  /** A separator right after a piece without one starts a new piece. */
  lemma {:induction false} SplitAtSeparator(a: string, sep: char, b: string)
    requires sep !in a
    ensures Split(a + [sep] + b, sep) == [a] + Split(b, sep)
  {
    if |a| == 0 {
      assert a + [sep] + b == [sep] + b;
      assert ([sep] + b)[1..] == b;
    } else {
      assert (a + [sep] + b)[1..] == a[1..] + [sep] + b;
      assert sep !in a[1..];
      SplitAtSeparator(a[1..], sep, b);
      assert [a[0]] + a[1..] == a;
    }
  }

  /** `parts.join(sep)`. */
  function Join(parts: seq<string>, sep: string): string
  {
    if |parts| == 0 then ""
    else if |parts| == 1 then parts[0]
    else parts[0] + sep + Join(parts[1..], sep)
  }

  /** Joining the pieces of a split with the same separator gives the string back. */
  lemma {:induction false} JoinSplit(s: string, sep: char)
    ensures Join(Split(s, sep), [sep]) == s
  {
    if |s| > 0 {
      var rest := Split(s[1..], sep);
      JoinSplit(s[1..], sep);
      if s[0] == sep {
        assert ([""] + rest)[1..] == rest;
      } else {
        var parts := [[s[0]] + rest[0]] + rest[1..];
        if |rest| == 1 {
          assert parts == [[s[0]] + rest[0]];
        } else {
          assert parts[1..] == rest[1..];
          assert Join(parts, [sep]) == [s[0]] + (rest[0] + [sep] + Join(rest[1..], [sep]));
        }
      }
    }
  }

  /** JavaScript's `a < b` on strings: lexicographic order on characters,
      a proper prefix coming first. */
  predicate Less(a: string, b: string)
    decreases |a|
  {
    if |a| == 0 then |b| > 0
    else if |b| == 0 then false
    else if a[0] != b[0] then a[0] < b[0]
    else Less(a[1..], b[1..])
  }

  predicate LessOrEqual(a: string, b: string)
  {
    a == b || Less(a, b)
  }

  /** The string order is total and strict: exactly one of `a < b`, `a == b`,
      `b < a` holds, so `!(d < from)` means `from <= d`. */
  lemma {:induction false} LessTrichotomy(a: string, b: string)
    ensures Less(a, b) || a == b || Less(b, a)
    ensures !(Less(a, b) && Less(b, a))
    ensures !(Less(a, b) && a == b)
    decreases |a|
  {
    if |a| > 0 && |b| > 0 && a[0] == b[0] {
      LessTrichotomy(a[1..], b[1..]);
      if a[1..] == b[1..] {
        assert a == [a[0]] + a[1..] && b == [b[0]] + b[1..];
      }
    }
  }

  lemma {:induction false} LessTransitive(a: string, b: string, c: string)
    requires Less(a, b) && Less(b, c)
    ensures Less(a, c)
    decreases |a|
  {
    if |a| > 0 && a[0] == b[0] && b[0] == c[0] {
      LessTransitive(a[1..], b[1..], c[1..]);
    }
  }
}

=== FILE: providerauth.dfy ===
/** The provider's sign-in screen: the two tabs' validation, the check that
    enables the submit button, and the value each service-category option
    carries. */
module ProviderAuth {
  import opened Base
  import opened JsText
  import opened FormRules

  datatype Tab = Login | Signup

  datatype ProviderForm = ProviderForm(
    name: string,
    email: string,
    password: string,
    confirmPassword: string,
    phone: string,
    businessName: string,
    address: string,
    serviceCategory: string,
    terms: bool,
    description: string)

  /** The `errors` object; a field has a message exactly when the key is set. */
  datatype ProviderErrors = ProviderErrors(
    email: Option<string>,
    password: Option<string>,
    name: Option<string>,
    phone: Option<string>,
    businessName: Option<string>,
    address: Option<string>,
    serviceCategory: Option<string>,
    confirmPassword: Option<string>,
    terms: Option<string>)

  const NoErrors := ProviderErrors(None, None, None, None, None, None, None, None, None)

  /** The messages both tabs collect: the e-mail and the password. */
  function CommonErrors(f: ProviderForm): (e: ProviderErrors)
    ensures e.email.None? <==> EmailMatches(f.email)
    ensures e.password.None? <==> |f.password| >= 6
    ensures e == NoErrors.(email := e.email, password := e.password)
  {
    NoErrors.(email := EmailError(f.email), password := PasswordError(f.password))
  }

  /** The messages only the sign-up tab adds to `e`. */
  function SignupErrors(e: ProviderErrors, f: ProviderForm): (r: ProviderErrors)
    ensures r.email == e.email && r.password == e.password
    ensures r.name.None? <==> !Blank(f.name)
    ensures r.phone.None? <==> PhoneMatches(f.phone)
    ensures r.businessName.None? <==> !Blank(f.businessName)
    ensures r.address.None? <==> !Blank(f.address)
    ensures r.serviceCategory.None? <==> Truthy(f.serviceCategory)
    ensures r.confirmPassword.None? <==> Truthy(f.confirmPassword) && f.password == f.confirmPassword
    ensures r.terms.None? <==> f.terms
  {
    e.(
      name := RequiredError(f.name, "Full name is required"),
      phone := PhoneError(f.phone),
      businessName := RequiredError(f.businessName, "Business name is required"),
      address := RequiredError(f.address, "Business address is required"),
      serviceCategory := if !Truthy(f.serviceCategory) then Some("Please select a service category") else None,
      confirmPassword := ConfirmError(f.password, f.confirmPassword),
      terms := if !f.terms then Some("You must accept the terms and conditions") else None)
  }

  /** The messages `validate` collects: e-mail and password on both tabs, the
      remaining fields on the sign-up tab only. */
  function CollectErrors(tab: Tab, f: ProviderForm): ProviderErrors
  {
    if tab == Login then CommonErrors(f) else SignupErrors(CommonErrors(f), f)
  }

  /** What one call of `validate` yields: whether submission goes ahead, and
      the errors the screen shows afterwards. */
  datatype Validation = Validation(passed: bool, shown: ProviderErrors)

  /** `validate` as written: on the login tab it returns before publishing the
      collected messages, so the screen keeps showing what it showed before. */
  function ValidateAsWritten(tab: Tab, f: ProviderForm, shown: ProviderErrors): (v: Validation)
    ensures v.passed <==> CollectErrors(tab, f) == NoErrors
    ensures tab == Login ==> v.shown == shown
    ensures tab == Signup ==> v.shown == CollectErrors(tab, f)
  {
    var e := CollectErrors(tab, f);
    if tab == Login then Validation(e == NoErrors, shown)
    else Validation(e == NoErrors, e)
  }

  /** `validate` with the collected messages published on both tabs: a
      refused submission always shows why. */
  function Validate(tab: Tab, f: ProviderForm): (v: Validation)
    ensures v.passed <==> v.shown == NoErrors
    ensures v.shown == CollectErrors(tab, f)
  {
    var e := CollectErrors(tab, f);
    Validation(e == NoErrors, e)
  }

  /** Both versions agree on whether the submission goes ahead; they differ
      only in what the login tab shows. */
  lemma ValidateAgreesOnOutcome(tab: Tab, f: ProviderForm, shown: ProviderErrors)
    ensures ValidateAsWritten(tab, f, shown).passed == Validate(tab, f).passed
    ensures tab == Signup ==> ValidateAsWritten(tab, f, shown) == Validate(tab, f)
  {
  }

  /** On the login tab validation passes exactly when the e-mail matches the
      pattern and the password has at least six characters. */
  lemma LoginValidIff(f: ProviderForm)
    ensures Validate(Login, f).passed <==> EmailMatches(f.email) && |f.password| >= 6
  {
    var e := CollectErrors(Login, f);
    assert e == NoErrors <==> e.email.None? && e.password.None?;
  }

  /** The login outcome depends on the e-mail and the password alone. */
  lemma LoginIgnoresOtherFields(f: ProviderForm, g: ProviderForm)
    requires f.email == g.email && f.password == g.password
    ensures Validate(Login, f).passed == Validate(Login, g).passed
  {
    LoginValidIff(f);
    LoginValidIff(g);
  }

  /** On the sign-up tab a phone number is accepted exactly when it is ten to
      fifteen ASCII digits and nothing else. */
  lemma PhoneAcceptedIff(f: ProviderForm)
    ensures SignupErrors(CommonErrors(f), f).phone.None? <==>
              10 <= |f.phone| <= 15 && forall i :: 0 <= i < |f.phone| ==> '0' <= f.phone[i] <= '9'
  {
  }

  /** Everything sign-up demands. */
  predicate SignupAcceptable(f: ProviderForm)
  {
    && EmailMatches(f.email) && |f.password| >= 6
    && !Blank(f.name) && PhoneMatches(f.phone)
    && !Blank(f.businessName) && !Blank(f.address) && Truthy(f.serviceCategory)
    && Truthy(f.confirmPassword) && f.password == f.confirmPassword && f.terms
  }

  lemma SignupValidIff(f: ProviderForm)
    ensures Validate(Signup, f).passed <==> SignupAcceptable(f)
  {
    var e := CollectErrors(Signup, f);
    assert e == NoErrors <==>
             && e.email.None? && e.password.None? && e.name.None? && e.phone.None?
             && e.businessName.None? && e.address.None? && e.serviceCategory.None?
             && e.confirmPassword.None? && e.terms.None?;
  }

  /** `isFormValid`, which enables the submit button: presence of the fields,
      the password length on login and the confirmation on sign-up. */
  predicate IsFormValid(tab: Tab, f: ProviderForm)
  {
    if tab == Login then Truthy(f.email) && Truthy(f.password) && |f.password| >= 6
    else
      && Truthy(f.name) && Truthy(f.email) && Truthy(f.phone) && Truthy(f.businessName)
      && Truthy(f.address) && Truthy(f.serviceCategory) && Truthy(f.password)
      && Truthy(f.confirmPassword) && f.password == f.confirmPassword && f.terms
  }

  /** A field that is not blank is not empty. */
  lemma NotBlankIsTruthy(x: string)
    requires !Blank(x)
    ensures Truthy(x)
  {
  }

  /** A form that passes validation always had its button enabled. */
  lemma ValidImpliesFormValid(tab: Tab, f: ProviderForm)
    requires Validate(tab, f).passed
    ensures IsFormValid(tab, f)
  {
    if tab == Login {
      LoginValidIff(f);
    } else {
      SignupValidIff(f);
      NotBlankIsTruthy(f.name);
      NotBlankIsTruthy(f.businessName);
      NotBlankIsTruthy(f.address);
    }
  }

  /** A login form whose address has no '.' after the '@'. A browser's own
      check of an e-mail input accepts 'a@b', so the form reaches the submit
      handler; the button is enabled but validation refuses it. */
  const MalformedLogin := ProviderForm("", "a@b", "secret1", "", "", "", "", "", false, "")

  /** The converse fails: the button check skips the e-mail pattern. */
  lemma FormValidDoesNotImplyValid()
    ensures IsFormValid(Login, MalformedLogin) && !Validate(Login, MalformedLogin).passed
  {
    NoDotNoEmail("a@b");
    LoginValidIff(MalformedLogin);
  }

  /** With the code as written, submitting that form from a clean screen is
      refused and no message appears. */
  lemma LoginRefusalIsSilent()
    ensures IsFormValid(Login, MalformedLogin)
    ensures ValidateAsWritten(Login, MalformedLogin, NoErrors) == Validation(false, NoErrors)
  {
    FormValidDoesNotImplyValid();
  }

  /** Publishing the messages on the login tab shows the e-mail error. */
  lemma LoginRefusalExplained()
    ensures Validate(Login, MalformedLogin).shown.email == Some("Please enter a valid email")
  {
    NoDotNoEmail("a@b");
  }

  // ---------------------------------------------------------------------------
  // Category option values
  // ---------------------------------------------------------------------------

  /** `s.replace(/\s+/g, '-')`: each maximal run of white space becomes one
      '-'; `inRun` tells whether the text before `s` ended inside a run. */
  function Dashes(s: string, inRun: bool): string
  {
    if |s| == 0 then ""
    else if IsWhiteSpace(s[0]) then
      (if inRun then Dashes(s[1..], true) else "-" + Dashes(s[1..], true))
    else [s[0]] + Dashes(s[1..], false)
  }

  /** The value of the option for `category`. */
  function OptionValue(category: string): string
  {
    Dashes(Lower(category), false)
  }

  /** An option value never holds white space, and a category without white
      space is only lower-cased. */
  lemma OptionValueShape(category: string)
    ensures NoWhiteSpace(OptionValue(category))
    ensures NoWhiteSpace(category) ==> OptionValue(category) == Lower(category)
  {
    DashesNoWhiteSpace(Lower(category), false);
    if NoWhiteSpace(category) {
      DashesLower(category, false);
      DashesIdentity(category, false);
    }
  }

  /** The value never holds white space. */
  lemma {:induction false} DashesNoWhiteSpace(s: string, inRun: bool)
    ensures NoWhiteSpace(Dashes(s, inRun))
    decreases |s|
  {
    if |s| > 0 {
      DashesNoWhiteSpace(s[1..], IsWhiteSpace(s[0]));
    }
  }

  /** Text without white space is left alone. */
  lemma {:induction false} DashesIdentity(s: string, inRun: bool)
    requires NoWhiteSpace(s)
    ensures Dashes(s, inRun) == s
    decreases |s|
  {
    if |s| > 0 {
      assert !IsWhiteSpace(s[0]);
      DashesIdentity(s[1..], false);
      assert s == [s[0]] + s[1..];
    }
  }

  /** Lower-casing does not move white space, so it commutes with the rewrite. */
  lemma {:induction false} DashesLower(s: string, inRun: bool)
    ensures Dashes(Lower(s), inRun) == Lower(Dashes(s, inRun))
    decreases |s|
  {
    if |s| > 0 {
      var l := Lower(s);
      assert l[0] == LowerChar(s[0]) && l[1..] == Lower(s[1..]);
      assert IsWhiteSpace(l[0]) == IsWhiteSpace(s[0]);
      DashesLower(s[1..], IsWhiteSpace(s[0]));
      if IsWhiteSpace(s[0]) {
        if !inRun {
          LowerConcat("-", Dashes(s[1..], true));
        }
      } else {
        LowerConcat([s[0]], Dashes(s[1..], false));
      }
    }
  }

  /** A run of white space followed by a non-space character is one '-'. */
  lemma {:induction false} DashesRun(run: string, rest: string, inRun: bool)
    requires |run| > 0 && forall i :: 0 <= i < |run| ==> IsWhiteSpace(run[i])
    requires |rest| > 0 && !IsWhiteSpace(rest[0])
    ensures Dashes(run + rest, inRun) == (if inRun then "" else "-") + Dashes(rest, false)
    decreases |run|
  {
    assert (run + rest)[0] == run[0] && (run + rest)[1..] == run[1..] + rest;
    if |run| > 1 {
      DashesRun(run[1..], rest, true);
    } else {
      assert run[1..] + rest == rest;
    }
  }

  /** A label made of words separated by single spaces becomes the lower-cased
      words joined with '-'. */
  lemma {:induction false} OptionValueOfWords(words: seq<string>)
    requires |words| >= 1
    requires forall k :: 0 <= k < |words| ==> |words[k]| > 0 && NoWhiteSpace(words[k])
    ensures OptionValue(Join(words, " ")) == Lower(Join(words, "-"))
  {
    DashesLower(Join(words, " "), false);
    DashesWords(words);
  }

  lemma {:induction false} DashesWords(words: seq<string>)
    requires |words| >= 1
    requires forall k :: 0 <= k < |words| ==> |words[k]| > 0 && NoWhiteSpace(words[k])
    ensures Dashes(Join(words, " "), false) == Join(words, "-")
    decreases |words|
  {
    if |words| == 1 {
      DashesIdentity(words[0], false);
    } else {
      var w := words[0];
      var tail := Join(words[1..], " ");
      DashesWords(words[1..]);
      assert Join(words, " ") == w + (" " + tail);
      DashesSplice(w, " " + tail);
      JoinHead(words[1..], " ");
      DashesRun(" ", tail, false);
      DashesIdentity(w, false);
    }
  }

  /** A leading word without white space is copied and the rewrite carries on. */
  lemma {:induction false} DashesSplice(w: string, rest: string)
    requires |w| > 0 && NoWhiteSpace(w)
    ensures Dashes(w + rest, false) == w + Dashes(rest, false)
    decreases |w|
  {
    assert (w + rest)[0] == w[0] && (w + rest)[1..] == w[1..] + rest;
    if |w| > 1 {
      DashesSplice(w[1..], rest);
      assert w == [w[0]] + w[1..];
    } else {
      assert w[1..] + rest == rest;
    }
  }

  /** A join of non-empty words starts with a non-space character. */
  lemma JoinHead(words: seq<string>, sep: string)
    requires |words| >= 1 && |words[0]| > 0 && !IsWhiteSpace(words[0][0])
    ensures |Join(words, sep)| > 0 && Join(words, sep)[0] == words[0][0]
  {
  }

  lemma AcRepairWords()
    ensures Join(["AC", "Repair"], " ") == "AC Repair"
    ensures Join(["AC", "Repair"], "-") == "AC-Repair"
  {
  }

  lemma LowerAcRepair()
    ensures Lower("AC-Repair") == "ac-repair"
  {
  }

  /** One of the labels on the screen: "AC Repair" gives "ac-repair". */
  lemma OptionValueAcRepair()
    ensures OptionValue("AC Repair") == "ac-repair"
  {
    var words := ["AC", "Repair"];
    assert NoWhiteSpace(words[0]) && NoWhiteSpace(words[1]);
    OptionValueOfWords(words);
    AcRepairWords();
    LowerAcRepair();
  }

  lemma BeautySalonWords()
    ensures Join(["Beauty", "&", "Salon"], " ") == "Beauty & Salon"
    ensures Join(["Beauty", "&", "Salon"], "-") == "Beauty-&-Salon"
  {
  }

  lemma LowerBeautySalon()
    ensures Lower("Beauty-&-Salon") == "beauty-&-salon"
  {
  }

  /** The '&' of "Beauty & Salon" is kept: its value is "beauty-&-salon",
      not the "beauty-salon" the other screens list. */
  lemma OptionValueBeautySalon()
    ensures OptionValue("Beauty & Salon") == "beauty-&-salon"
    ensures OptionValue("Beauty & Salon") != "beauty-salon"
  {
    var words := ["Beauty", "&", "Salon"];
    assert NoWhiteSpace(words[0]) && NoWhiteSpace(words[1]) && NoWhiteSpace(words[2]);
    OptionValueOfWords(words);
    BeautySalonWords();
    LowerBeautySalon();
    assert |"beauty-&-salon"| != |"beauty-salon"|;
  }
}

=== FILE: registration.dfy ===
/** `registerUser`: the checks on the request body, the duplicate-email
    check against the user collection (a map keyed by e-mail), the record
    created and the view returned. Password hashing and id generation are
    parameters. */
module Registration {
  import opened Base
  import opened JsText

  /** The request body; an absent string field is the empty string, which is
      falsy like `undefined`. */
  datatype RegisterBody = RegisterBody(
    name: string,
    email: string,
    password: string,
    role: string,
    phone: string,
    location: Option<Location>)

  datatype UserRecord = UserRecord(
    id: string,
    name: string,
    email: string,
    password: string,
    role: string,
    phone: string,
    location: Option<Location>)

  /** The user collection, each record under its e-mail. */
  type Store = map<string, UserRecord>

  /** The `user` object of the 201 answer: a record's fields without the password. */
  datatype UserView = UserView(
    id: string,
    name: string,
    email: string,
    role: string,
    phone: string,
    location: Option<Location>)

  /** The answer and the collection afterwards; `lookedUp` tells whether the
      collection was searched for the e-mail. */
  datatype Registration = Registration(
    status: int,
    message: string,
    user: Option<UserView>,
    store: Store,
    lookedUp: bool)

  const Roles := ["customer", "service_provider"]

  const Required := "Name, email, password and role are required"
  const InvalidRole := "Invalid role"
  const Exists := "User already exists"
  const Registered := "User registered successfully"

  function View(u: UserRecord): (v: UserView)
  {
    UserView(u.id, u.name, u.email, u.role, u.phone, u.location)
  }

  /** The view tells nothing about the password. */
  lemma ViewHidesPassword(u: UserRecord, password: string)
    ensures View(u.(password := password)) == View(u)
  {
  }

  /** The record `User.create` stores for body `b`. */
  function NewRecord(b: RegisterBody, id: string, hash: string -> string): UserRecord
  {
    UserRecord(id, b.name, b.email, hash(b.password), b.role, b.phone,
               if b.location.Some? then Some(Location(b.location.value.city, b.location.value.area)) else None)
  }

  predicate FieldsPresent(b: RegisterBody)
  {
    Truthy(b.name) && Truthy(b.email) && Truthy(b.password) && Truthy(b.role)
  }

  function RegisterUser(store: Store, b: RegisterBody, id: string, hash: string -> string): (r: Registration)
    ensures !FieldsPresent(b) ==> r == Registration(400, Required, None, store, false)
    ensures FieldsPresent(b) && b.role !in Roles ==> r == Registration(400, InvalidRole, None, store, false)
    ensures FieldsPresent(b) && b.role in Roles && b.email in store ==>
              r == Registration(409, Exists, None, store, true)
    ensures r.status == 201 <==> FieldsPresent(b) && b.role in Roles && b.email !in store
    ensures r.status == 201 ==>
              && r.store == store[b.email := NewRecord(b, id, hash)]
              && r.user == Some(View(NewRecord(b, id, hash)))
              && r.message == Registered && r.lookedUp
  {
    if !FieldsPresent(b) then Registration(400, Required, None, store, false)
    else if b.role !in Roles then Registration(400, InvalidRole, None, store, false)
    else if b.email in store then Registration(409, Exists, None, store, true)
    else
      var u := NewRecord(b, id, hash);
      Registration(201, Registered, Some(View(u)), store[b.email := u], true)
  }

  /** Every record sits under its own e-mail. */
  predicate KeyedByEmail(store: Store)
  {
    forall e :: e in store ==> store[e].email == e
  }

  /** Registration keeps the collection keyed by e-mail, adds exactly one
      e-mail when it succeeds and changes nothing otherwise. */
  lemma RegisterPreserves(store: Store, b: RegisterBody, id: string, hash: string -> string)
    requires KeyedByEmail(store)
    ensures var r := RegisterUser(store, b, id, hash);
            && KeyedByEmail(r.store)
            && (r.status == 201 ==> r.store.Keys == store.Keys + {b.email} && |r.store| == |store| + 1)
            && (r.status != 201 ==> r.store == store)
  {
    var r := RegisterUser(store, b, id, hash);
    if r.status == 201 {
      assert b.email !in store;
      assert |store.Keys + {b.email}| == |store.Keys| + 1;
    }
  }

  /** The stored location is the body's city and area, or absent when the
      body had none. */
  lemma StoredLocation(store: Store, b: RegisterBody, id: string, hash: string -> string)
    requires RegisterUser(store, b, id, hash).status == 201
    ensures var u := RegisterUser(store, b, id, hash).store[b.email];
            && (b.location.None? ==> u.location.None?)
            && (b.location.Some? ==> u.location == Some(Location(b.location.value.city, b.location.value.area)))
  {
  }

  /** A second registration with the same e-mail is refused and changes nothing. */
  lemma RegisterTwiceConflicts(store: Store, b: RegisterBody, c: RegisterBody, id1: string, id2: string, hash: string -> string)
    requires RegisterUser(store, b, id1, hash).status == 201
    requires c.email == b.email && FieldsPresent(c) && c.role in Roles
    ensures var s := RegisterUser(store, b, id1, hash).store;
            RegisterUser(s, c, id2, hash) == Registration(409, Exists, None, s, true)
  {
  }

  /** A body asking for any role other than 'customer' and 'service_provider'
      (say 'admin') never gets in, and the collection is not searched. */
  lemma UnknownRoleRefused(store: Store, b: RegisterBody, id: string, hash: string -> string)
    requires FieldsPresent(b) && b.role != "customer" && b.role != "service_provider"
    ensures RegisterUser(store, b, id, hash) == Registration(400, InvalidRole, None, store, false)
  {
    assert b.role !in Roles;
  }

  /** The role 'admin' in particular is refused before any lookup. */
  lemma AdminRoleRefused(store: Store, b: RegisterBody, id: string, hash: string -> string)
    requires FieldsPresent(b) && b.role == "admin"
    ensures RegisterUser(store, b, id, hash) == Registration(400, InvalidRole, None, store, false)
  {
    UnknownRoleRefused(store, b, id, hash);
  }
}

=== FILE: requests.dfy ===
/** The provider's service-request screen: the booking lifecycle (accept,
    reject, reschedule, complete, cancel), the checks that guard it, the action
    buttons each status renders, and the booking-history view.

    The screen keeps its requests in local state. A transition is a pure map
    over that list; nothing in it looks at the current status. Which actions a
    provider can reach is decided only by the buttons rendered for a request,
    so that gate is modelled on its own (`Buttons`, `Incoming`) and the
    lifecycle properties are proved for steps that pass through it. */
module Requests {
  import opened Base
  import opened JsText

  datatype Status = Requested | Confirmed | Completed | Cancelled

  datatype Action = Accept | Reject | Reschedule | Complete | Cancel

  datatype Request = Request(
    id: string,
    customerName: string,
    serviceName: string,
    category: string,
    date: string,          // 'YYYY-MM-DD'
    time: string,          // 'HH:MM'
    location: string,
    price: int,
    status: Status,
    cancelReason: Option<string>,
    createdAt: string)

  /** Which dialog is open, and for which request id (both `null` when closed). */
  datatype ModalState = ModalState(kind: Option<Action>, requestId: Option<string>)

  /** The dialog's input fields. */
  datatype ModalData = ModalData(rejectReason: string, newDate: string, newTime: string)

  const EmptyData := ModalData("", "", "")
  const Closed := ModalState(None, None)

  /** The screen's state. */
  datatype Screen = Screen(
    requests: seq<Request>,
    modal: ModalState,
    data: ModalData,
    modalError: string,
    alert: Alert)

  // ---------------------------------------------------------------------------
  // Reschedule check
  // ---------------------------------------------------------------------------

  type Hour = h: int | 0 <= h < 24

  /** What `new Date(`${newDate}T${newTime}`)` denotes when it is a valid date:
      its instant in milliseconds and its local hour (`getHours()`). An invalid
      date is `None`. */
  datatype LocalInstant = LocalInstant(epochMs: int, hour: Hour)

  /** The fixed working-hours window of the reschedule check, both ends inclusive
      on the hour. */
  const FirstHour := 9
  const LastHour := 21

  datatype RescheduleError = MissingDateOrTime | InvalidDateTime | InPast | OutsideWorkingHours

  function RescheduleMessage(e: RescheduleError): string
  {
    match e
    case MissingDateOrTime => "Please select both date and time."
    case InvalidDateTime => "Please provide a valid date and time."
    case InPast => "You cannot schedule a booking in the past."
    case OutsideWorkingHours => "Selected time is outside your usual working hours (9 AM – 9 PM)."
  }

  /** `validateReschedule`: `None` when the new date and time pass, otherwise the
      first check that fails. `selected` is the parsed date and time and `now`
      the current instant, both in milliseconds. */
  function ValidateReschedule(data: ModalData, selected: Option<LocalInstant>, now: int): (r: Option<RescheduleError>)
    ensures r == None <==>
              && Truthy(data.newDate) && Truthy(data.newTime)
              && selected.Some? && selected.value.epochMs > now
              && FirstHour <= selected.value.hour <= LastHour
    ensures r == Some(MissingDateOrTime) <==> !Truthy(data.newDate) || !Truthy(data.newTime)
    ensures r == Some(InPast) ==> selected.Some? && selected.value.epochMs <= now
    ensures Truthy(data.newDate) && Truthy(data.newTime) ==>
              && (r == Some(InvalidDateTime) <==> selected.None?)
              && (r == Some(InPast) <==> selected.Some? && selected.value.epochMs <= now)
              && (r == Some(OutsideWorkingHours) <==>
                    selected.Some? && selected.value.epochMs > now
                    && !(FirstHour <= selected.value.hour <= LastHour))
  {
    if !Truthy(data.newDate) || !Truthy(data.newTime) then Some(MissingDateOrTime)
    else if selected.None? then Some(InvalidDateTime)
    else if selected.value.epochMs <= now then Some(InPast)
    else if selected.value.hour < FirstHour || selected.value.hour > LastHour then Some(OutsideWorkingHours)
    else None
  }

  /** The edges of the window, stated on the parsed local hour (the date and
      time text only have to be present): any instant after `now` in hour 21
      passes, one in hour 8 does not, and an instant equal to `now` is in the
      past whatever its hour. */
  lemma WorkingHoursEdges(date: string, time: string, now: int, later: int)
    requires Truthy(date) && Truthy(time) && later > now
    ensures ValidateReschedule(ModalData("", date, time), Some(LocalInstant(later, 21)), now) == None
    ensures ValidateReschedule(ModalData("", date, time), Some(LocalInstant(later, 8)), now) == Some(OutsideWorkingHours)
    ensures ValidateReschedule(ModalData("", date, time), Some(LocalInstant(now, 10)), now) == Some(InPast)
  {
  }

  // ---------------------------------------------------------------------------
  // The transition
  // ---------------------------------------------------------------------------

  /** Every field an action never writes is the same in `a` and `b`. */
  predicate SameIdentity(a: Request, b: Request)
  {
    && a.id == b.id && a.customerName == b.customerName && a.serviceName == b.serviceName
    && a.category == b.category && a.location == b.location && a.price == b.price
    && a.createdAt == b.createdAt
  }

  /** The new value of one request the action is applied to (the body of the
      `map` callback for a matching id). */
  function Transition(req: Request, action: Action, data: ModalData): (r: Request)
    ensures SameIdentity(req, r)
    ensures r.status != Requested
    ensures action == Accept ==> r == req.(status := Confirmed)
    ensures action == Reject ==> r == req.(status := Cancelled, cancelReason := Some(Trim(data.rejectReason)))
    ensures action == Reschedule ==> r == req.(status := Confirmed, date := data.newDate, time := data.newTime)
    ensures action == Complete ==> r == req.(status := Completed)
    ensures action == Cancel ==> r == req.(status := Cancelled)
  {
    match action
    case Accept => req.(status := Confirmed)
    case Reject => req.(status := Cancelled, cancelReason := Some(Trim(data.rejectReason)))
    case Reschedule => req.(status := Confirmed, date := data.newDate, time := data.newTime)
    case Complete => req.(status := Completed)
    case Cancel => req.(status := Cancelled)
  }

  /** `prev.map(...)`: every request whose id matches is transformed, every other
      request is kept, and the list keeps its length and order. */
  function ApplyToList(reqs: seq<Request>, id: string, action: Action, data: ModalData): (r: seq<Request>)
    ensures |r| == |reqs|
    ensures forall i :: 0 <= i < |reqs| && reqs[i].id != id ==> r[i] == reqs[i]
    ensures forall i :: 0 <= i < |reqs| && reqs[i].id == id ==> r[i] == Transition(reqs[i], action, data)
  {
    if |reqs| == 0 then []
    else
      var head := if reqs[0].id == id then Transition(reqs[0], action, data) else reqs[0];
      [head] + ApplyToList(reqs[1..], id, action, data)
  }

  /** `requests.find((r) => r.id === id)`. */
  function Find(reqs: seq<Request>, id: string): (r: Option<Request>)
    ensures r.None? <==> forall i :: 0 <= i < |reqs| ==> reqs[i].id != id
    ensures r.Some? ==> r.value in reqs && r.value.id == id
    ensures r.Some? ==> exists i :: 0 <= i < |reqs| && reqs[i] == r.value && forall j :: 0 <= j < i ==> reqs[j].id != id
  {
    if |reqs| == 0 then None
    else if reqs[0].id == id then Some(reqs[0])
    else Find(reqs[1..], id)
  }

  /** The result of `applyAction` before it touches the screen. */
  datatype Outcome =
    | Ignored                                 // no dialog, no id, or no such request
    | Refused(error: string)                  // a guard failed; shown in the dialog
    | Done(requests: seq<Request>, message: string)

  function SuccessMessage(a: Action): string
  {
    match a
    case Accept => "Request accepted and confirmed."
    case Reject => "Request rejected successfully."
    case Reschedule => "Request rescheduled successfully."
    case Complete => "Booking marked as completed."
    case Cancel => "Booking cancelled."
  }

  const RejectReasonMissing := "Please provide a reason for rejection."

  /** `applyAction` as a decision over the current list. */
  function Decide(reqs: seq<Request>, modal: ModalState, data: ModalData,
                  selected: Option<LocalInstant>, now: int): (r: Outcome)
    ensures modal.kind.None? || modal.requestId.None? || !Truthy(modal.requestId.value) ==> r == Ignored
    ensures modal.requestId.Some? && (forall i :: 0 <= i < |reqs| ==> reqs[i].id != modal.requestId.value) ==> r == Ignored
    ensures r.Done? ==> modal.kind.Some? && modal.requestId.Some?
    ensures r.Done? ==> r.requests == ApplyToList(reqs, modal.requestId.value, modal.kind.value, data)
    ensures r.Done? ==> r.message == SuccessMessage(modal.kind.value)
    ensures r.Done? && modal.kind == Some(Reject) ==> !Blank(data.rejectReason)
    ensures r.Done? && modal.kind == Some(Reschedule) ==> ValidateReschedule(data, selected, now) == None
    ensures modal.kind == Some(Reject) && Blank(data.rejectReason) ==> r.Ignored? || r == Refused(RejectReasonMissing)
    ensures modal.kind.Some? && modal.requestId.Some? && Truthy(modal.requestId.value)
              && Find(reqs, modal.requestId.value).Some? ==>
              var action, id := modal.kind.value, modal.requestId.value;
              var check := ValidateReschedule(data, selected, now);
              && (action == Reject && Blank(data.rejectReason) ==> r == Refused(RejectReasonMissing))
              && (action == Reschedule && check.Some? ==> r == Refused(RescheduleMessage(check.value)))
              && (!(action == Reject && Blank(data.rejectReason)) && !(action == Reschedule && check.Some?) ==>
                    r == Done(ApplyToList(reqs, id, action, data), SuccessMessage(action)))
  {
    if modal.kind.None? || modal.requestId.None? || !Truthy(modal.requestId.value) then Ignored
    else
      var action, id := modal.kind.value, modal.requestId.value;
      if Find(reqs, id).None? then Ignored
      else if action == Reject && Blank(data.rejectReason) then Refused(RejectReasonMissing)
      else if action == Reschedule && ValidateReschedule(data, selected, now).Some? then
        Refused(RescheduleMessage(ValidateReschedule(data, selected, now).value))
      else Done(ApplyToList(reqs, id, action, data), SuccessMessage(action))
  }

  /** The list after one `applyAction`. */
  function StepList(reqs: seq<Request>, modal: ModalState, data: ModalData,
                    selected: Option<LocalInstant>, now: int): seq<Request>
  {
    var o := Decide(reqs, modal, data, selected, now);
    if o.Done? then o.requests else reqs
  }

  // ---------------------------------------------------------------------------
  // The screen: opening, closing and confirming the dialog
  // ---------------------------------------------------------------------------

  /** `openModal`: the dialog opens for the action and id, its error and the
      banner are cleared, and the fields start empty except that a reschedule
      dialog starts from the request's current date and time. */
  function OpenModal(s: Screen, action: Action, id: string): (r: Screen)
    ensures r.requests == s.requests
    ensures r.modal == ModalState(Some(action), Some(id)) && r.modalError == "" && r.alert == NoAlert
    ensures r.data.rejectReason == ""
    ensures action != Reschedule ==> r.data == EmptyData
    ensures action == Reschedule && Find(s.requests, id).Some? ==>
              r.data.newDate == Find(s.requests, id).value.date && r.data.newTime == Find(s.requests, id).value.time
    ensures action == Reschedule && Find(s.requests, id).None? ==> r.data == EmptyData
  {
    var found := Find(s.requests, id);
    var data :=
      if action == Reschedule then
        ModalData("", if found.Some? then found.value.date else "", if found.Some? then found.value.time else "")
      else EmptyData;
    s.(modal := ModalState(Some(action), Some(id)), data := data, modalError := "", alert := NoAlert)
  }

  /** `closeModal`. */
  function CloseModal(s: Screen): (r: Screen)
    ensures r.requests == s.requests && r.alert == s.alert
    ensures r.modal == Closed && r.data == EmptyData && r.modalError == ""
  {
    s.(modal := Closed, data := EmptyData, modalError := "")
  }

  /** `applyAction` on the whole screen: ignored inputs change nothing, a failed
      guard only sets the dialog's error, and success stores the new list,
      shows the success banner and closes the dialog. */
  function ApplyAction(s: Screen, selected: Option<LocalInstant>, now: int): (r: Screen)
    ensures Decide(s.requests, s.modal, s.data, selected, now).Ignored? ==> r == s
    ensures Decide(s.requests, s.modal, s.data, selected, now).Refused? ==>
              r == s.(modalError := Decide(s.requests, s.modal, s.data, selected, now).error)
    ensures Decide(s.requests, s.modal, s.data, selected, now).Done? ==>
              && r.requests == StepList(s.requests, s.modal, s.data, selected, now)
              && r.modal == Closed && r.data == EmptyData && r.modalError == ""
              && r.alert == Success(Decide(s.requests, s.modal, s.data, selected, now).message)
  {
    match Decide(s.requests, s.modal, s.data, selected, now)
    case Ignored => s
    case Refused(e) => s.(modalError := e)
    case Done(reqs, msg) => CloseModal(s.(requests := reqs, alert := Success(msg)))
  }

  /** Opening the dialog on a listed 'requested' entry and confirming an
      accept confirms exactly that entry and shows the accept banner. */
  lemma AcceptConfirms(s: Screen, k: int, selected: Option<LocalInstant>, now: int)
    requires 0 <= k < |s.requests| && s.requests[k].status == Requested && Truthy(s.requests[k].id)
    ensures Accept in Offered(s.requests, s.requests[k])
    ensures var r := ApplyAction(OpenModal(s, Accept, s.requests[k].id), selected, now);
            && r.requests[k] == s.requests[k].(status := Confirmed)
            && r.alert == Success("Request accepted and confirmed.")
            && r.modal == Closed
  {
    assert s.requests[k] in s.requests;
  }

  /** Rejecting without a reason (empty or white space only) leaves the list
      exactly as it was. */
  lemma BlankRejectChangesNothing(s: Screen, selected: Option<LocalInstant>, now: int)
    requires s.modal.kind == Some(Reject) && Blank(s.data.rejectReason)
    ensures ApplyAction(s, selected, now).requests == s.requests
  {
  }

  /** A reschedule that fails its check leaves the list exactly as it was. */
  lemma FailedRescheduleChangesNothing(s: Screen, selected: Option<LocalInstant>, now: int)
    requires s.modal.kind == Some(Reschedule) && ValidateReschedule(s.data, selected, now).Some?
    ensures ApplyAction(s, selected, now).requests == s.requests
  {
  }

  // ---------------------------------------------------------------------------
  // The rendered gate
  // ---------------------------------------------------------------------------

  /** The requests listed under "Incoming Requests": requested or confirmed. */
  function Incoming(reqs: seq<Request>): (r: seq<Request>)
    ensures IsSubsequence(r, reqs)
    ensures forall b :: multiset(r)[b] == if b.status == Requested || b.status == Confirmed then multiset(reqs)[b] else 0
  {
    Filter((r: Request) => r.status == Requested || r.status == Confirmed, reqs)
  }

  /** The action buttons rendered for a request of the given status, in order. */
  function Buttons(s: Status): (r: seq<Action>)
    ensures forall i, j :: 0 <= i < j < |r| ==> r[i] != r[j]
    ensures forall a :: a in r <==>
              || (s == Requested && (a == Accept || a == Reject))
              || (s == Confirmed && (a == Complete || a == Cancel))
              || (a == Reschedule && !Terminal(s))
  {
    match s
    case Requested => [Accept, Reject, Reschedule]
    case Confirmed => [Complete, Cancel, Reschedule]
    case Completed => []
    case Cancelled => []
  }

  /** The actions a provider can open for a request: a button exists for it and
      the request is listed. */
  function Offered(reqs: seq<Request>, req: Request): (r: set<Action>)
    ensures req in reqs && req.status == Requested ==> r == {Accept, Reject, Reschedule}
    ensures req in reqs && req.status == Confirmed ==> r == {Complete, Cancel, Reschedule}
    ensures req.status == Completed || req.status == Cancelled ==> r == {}
  {
    if req in Incoming(reqs) then set a | a in Buttons(req.status) else {}
  }

  /** The lifecycle the screen is meant to follow: requested may become confirmed
      or cancelled; confirmed may become completed or cancelled, or stay
      confirmed when rescheduled; completed and cancelled are final. */
  predicate LifecycleAllows(from: Status, to: Status)
  {
    || (from == Requested && (to == Confirmed || to == Cancelled))
    || (from == Confirmed && (to == Confirmed || to == Completed || to == Cancelled))
  }

  /** Every action reachable through the rendered buttons moves a request along
      the lifecycle. */
  lemma GatedTransitionFollowsLifecycle(reqs: seq<Request>, req: Request, action: Action, data: ModalData)
    requires action in Offered(reqs, req)
    ensures LifecycleAllows(req.status, Transition(req, action, data).status)
  {
  }

  predicate Terminal(s: Status)
  {
    s == Completed || s == Cancelled
  }

  predicate UniqueIds(reqs: seq<Request>)
  {
    forall i, j :: 0 <= i < j < |reqs| ==> reqs[i].id != reqs[j].id
  }

  /** One provider interaction: a button on the request at `target` of the
      current list, then the dialog's fields, the parsed date and the clock at
      confirmation. */
  datatype Click = Click(target: nat, action: Action, data: ModalData,
                         selected: Option<LocalInstant>, now: int)

  function ClickStep(reqs: seq<Request>, c: Click): seq<Request>
    requires c.target < |reqs|
  {
    StepList(reqs, ModalState(Some(c.action), Some(reqs[c.target].id)), c.data, c.selected, c.now)
  }

  /** Every click of the run hits a rendered button of the list it is made on. */
  predicate GatedRun(reqs: seq<Request>, clicks: seq<Click>)
    decreases |clicks|
  {
    |clicks| == 0 ||
    (&& clicks[0].target < |reqs|
     && clicks[0].action in Offered(reqs, reqs[clicks[0].target])
     && GatedRun(ClickStep(reqs, clicks[0]), clicks[1..]))
  }

  function RunClicks(reqs: seq<Request>, clicks: seq<Click>): seq<Request>
    requires GatedRun(reqs, clicks)
    decreases |clicks|
  {
    if |clicks| == 0 then reqs else RunClicks(ClickStep(reqs, clicks[0]), clicks[1..])
  }

  /** A step keeps every id in place, so the list keeps its ids unique. */
  lemma StepKeepsIds(reqs: seq<Request>, modal: ModalState, data: ModalData,
                     selected: Option<LocalInstant>, now: int)
    ensures |StepList(reqs, modal, data, selected, now)| == |reqs|
    ensures forall i :: 0 <= i < |reqs| ==> StepList(reqs, modal, data, selected, now)[i].id == reqs[i].id
  {
  }

  /** With unique ids, one gated click leaves every completed or cancelled
      request exactly as it was. */
  lemma GatedClickKeepsTerminal(reqs: seq<Request>, c: Click)
    requires UniqueIds(reqs)
    requires c.target < |reqs| && c.action in Offered(reqs, reqs[c.target])
    ensures forall i :: 0 <= i < |reqs| && Terminal(reqs[i].status) ==> ClickStep(reqs, c)[i] == reqs[i]
  {
    var t := reqs[c.target];
    assert !Terminal(t.status);
    forall i | 0 <= i < |reqs| && Terminal(reqs[i].status)
      ensures ClickStep(reqs, c)[i] == reqs[i]
    {
      assert i != c.target;
    }
  }

  /** Terminality under the gate: along any run of clicks on rendered buttons,
      completed and cancelled requests never change again. */
  lemma {:induction false} TerminalStaysTerminal(reqs: seq<Request>, clicks: seq<Click>)
    requires UniqueIds(reqs) && GatedRun(reqs, clicks)
    ensures |RunClicks(reqs, clicks)| == |reqs|
    ensures forall i :: 0 <= i < |reqs| && Terminal(reqs[i].status) ==> RunClicks(reqs, clicks)[i] == reqs[i]
    decreases |clicks|
  {
    if |clicks| > 0 {
      var c := clicks[0];
      var next := ClickStep(reqs, c);
      StepKeepsIds(reqs, ModalState(Some(c.action), Some(reqs[c.target].id)), c.data, c.selected, c.now);
      GatedClickKeepsTerminal(reqs, c);
      TerminalStaysTerminal(next, clicks[1..]);
    }
  }

  /** A plain `applyAction` step, gated or not. */
  datatype Step = Step(modal: ModalState, data: ModalData, selected: Option<LocalInstant>, now: int)

  function Run(reqs: seq<Request>, steps: seq<Step>): seq<Request>
    decreases |steps|
  {
    if |steps| == 0 then reqs
    else Run(StepList(reqs, steps[0].modal, steps[0].data, steps[0].selected, steps[0].now), steps[1..])
  }

  /** No re-entry: whatever actions are applied, with or without the gate, a
      request that has left 'requested' never returns to it. */
  lemma {:induction false} NoReentryIntoRequested(reqs: seq<Request>, steps: seq<Step>)
    ensures |Run(reqs, steps)| == |reqs|
    ensures forall i :: 0 <= i < |reqs| && reqs[i].status != Requested ==> Run(reqs, steps)[i].status != Requested
    decreases |steps|
  {
    if |steps| > 0 {
      var s := steps[0];
      StepKeepsIds(reqs, s.modal, s.data, s.selected, s.now);
      NoReentryIntoRequested(StepList(reqs, s.modal, s.data, s.selected, s.now), steps[1..]);
    }
  }

  // ---------------------------------------------------------------------------
  // Booking history
  // ---------------------------------------------------------------------------

  datatype StatusFilter = AnyStatus | OnlyStatus(status: Status)

  /** The history filters; an empty date is an unset bound. */
  datatype HistoryFilters = HistoryFilters(status: StatusFilter, fromDate: string, toDate: string)

  /** `bookings`: every request that has left 'requested'. */
  function Bookings(reqs: seq<Request>): (r: seq<Request>)
    ensures IsSubsequence(r, reqs)
    ensures forall b :: multiset(r)[b] == if b.status != Requested then multiset(reqs)[b] else 0
  {
    Filter((r: Request) => r.status != Requested, reqs)
  }

  predicate PassesHistoryFilters(f: HistoryFilters, b: Request)
  {
    && (f.status.AnyStatus? || b.status == f.status.status)
    && !(Truthy(f.fromDate) && Less(b.date, f.fromDate))
    && !(Truthy(f.toDate) && Less(f.toDate, b.date))
  }

  /** `filteredBookings`. */
  function History(reqs: seq<Request>, f: HistoryFilters): (r: seq<Request>)
    ensures forall b :: multiset(r)[b] ==
              if b.status != Requested && PassesHistoryFilters(f, b) then multiset(reqs)[b] else 0
  {
    Filter((b: Request) => PassesHistoryFilters(f, b), Bookings(reqs))
  }

  /** What the history view shows: never a 'requested' entry; only the chosen
      status when one is chosen; only dates inside the set bounds (string order
      on 'YYYY-MM-DD'); and every request meeting all of that, in list order. */
  lemma HistoryView(reqs: seq<Request>, f: HistoryFilters)
    ensures forall b :: b in History(reqs, f) ==> b in reqs && b.status != Requested
    ensures forall b :: b in History(reqs, f) && f.status.OnlyStatus? ==> b.status == f.status.status
    ensures forall b :: b in History(reqs, f) && Truthy(f.fromDate) ==> LessOrEqual(f.fromDate, b.date)
    ensures forall b :: b in History(reqs, f) && Truthy(f.toDate) ==> LessOrEqual(b.date, f.toDate)
    ensures forall b :: b in reqs && b.status != Requested
                        && (f.status.AnyStatus? || b.status == f.status.status)
                        && (Truthy(f.fromDate) ==> LessOrEqual(f.fromDate, b.date))
                        && (Truthy(f.toDate) ==> LessOrEqual(b.date, f.toDate))
                        ==> b in History(reqs, f)
  {
    forall b
      ensures b in History(reqs, f) <==> b in reqs && b.status != Requested && PassesHistoryFilters(f, b)
    {
      HistoryMember(reqs, f, b);
    }
    forall b
      ensures PassesHistoryFilters(f, b) <==>
                && (f.status.AnyStatus? || b.status == f.status.status)
                && (Truthy(f.fromDate) ==> LessOrEqual(f.fromDate, b.date))
                && (Truthy(f.toDate) ==> LessOrEqual(b.date, f.toDate))
    {
      LessTrichotomy(b.date, f.fromDate);
      LessTrichotomy(b.date, f.toDate);
    }
  }

  /** A request is in the history exactly when it is in the list, has left
      'requested' and passes the filters. */
  lemma HistoryMember(reqs: seq<Request>, f: HistoryFilters, b: Request)
    ensures b in History(reqs, f) <==> b in reqs && b.status != Requested && PassesHistoryFilters(f, b)
  {
    var h := History(reqs, f);
    assert (b in h) == (b in multiset(h));
    assert (b in reqs) == (b in multiset(reqs));
  }

  /** The history is the request list with entries removed, in list order. */
  lemma HistoryKeepsOrder(reqs: seq<Request>, f: HistoryFilters)
    ensures IsSubsequence(History(reqs, f), reqs)
  {
    var bs := Bookings(reqs);
    SubsequenceTransitive(History(reqs, f), bs, reqs);
  }
}

=== FILE: timeslots.dfy ===
/** Times of day as the availability screen reads them: `timeToMinutes` turns
    'HH:MM' into minutes since midnight with JavaScript's `parseInt`, and
    `hasOverlap` tests a new slot against a day's slots with half-open
    intervals. */
module TimeSlots {
  import opened Base
  import opened JsText

  predicate IsDigit(c: char)
  {
    '0' <= c <= '9'
  }

  function DigitValue(c: char): int
  {
    c as int - '0' as int
  }

  /** The longest prefix of `s` made of ASCII digits. */
  function LeadingDigits(s: string): string
  {
    if |s| > 0 && IsDigit(s[0]) then [s[0]] + LeadingDigits(s[1..]) else ""
  }

  /** `LeadingDigits` is the longest prefix made only of digits. */
  lemma {:induction false} LeadingDigitsFacts(s: string)
    ensures |LeadingDigits(s)| <= |s| && LeadingDigits(s) == s[..|LeadingDigits(s)|]
    ensures forall i :: 0 <= i < |LeadingDigits(s)| ==> IsDigit(LeadingDigits(s)[i])
    ensures |LeadingDigits(s)| < |s| ==> !IsDigit(s[|LeadingDigits(s)|])
  {
    if |s| > 0 && IsDigit(s[0]) {
      LeadingDigitsFacts(s[1..]);
      var r := LeadingDigits(s[1..]);
      assert LeadingDigits(s) == [s[0]] + r;
      assert forall i :: 1 <= i < 1 + |r| ==> ([s[0]] + r)[i] == r[i - 1];
    }
  }

  /** The decimal value of a run of digits read after the value `acc`, most
      significant digit first. */
  function DigitsValue(acc: int, ds: string): int
    decreases |ds|
  {
    if |ds| == 0 then acc else DigitsValue(10 * acc + DigitValue(ds[0]), ds[1..])
  }

  /** `parseInt(t, 10)`: leading white space is skipped, an optional sign is
      read, then the longest run of digits; with no digit the result is NaN
      (`None`). */
  function ParseInt(t: string): Option<int>
  {
    var u := TrimStart(t);
    var negative := |u| > 0 && u[0] == '-';
    var ds := LeadingDigits(UnsignedPart(u));
    if |ds| == 0 then None
    else
      var v := DigitsValue(0, ds);
      Some(if negative then -v else v)
  }

  function UnsignedPart(u: string): string
  {
    if |u| > 0 && (u[0] == '-' || u[0] == '+') then u[1..] else u
  }

  /** `parseInt` is NaN exactly when, after the leading white space and an
      optional sign, there is no digit. */
  lemma ParseIntNaN(t: string)
    ensures ParseInt(t).None? <==>
              var u := UnsignedPart(TrimStart(t)); |u| == 0 || !IsDigit(u[0])
  {
  }

  /** `timeToMinutes`: the hours before the first ':' and the minutes after it,
      as `60 * h + m`; NaN (`None`) when either does not parse. Without a ':'
      there are no minutes, so that is NaN too. */
  function TimeToMinutes(time: string): Option<int>
  {
    var parts := Split(time, ':');
    if |parts| < 2 then None
    else
      var h, m := ParseInt(parts[0]), ParseInt(parts[1]);
      if h.None? || m.None? then None else Some(h.value * 60 + m.value)
  }

  /** A time written 'HH:MM' with two digits on each side. */
  predicate WellFormedTime(t: string)
  {
    |t| == 5 && IsDigit(t[0]) && IsDigit(t[1]) && t[2] == ':' && IsDigit(t[3]) && IsDigit(t[4])
  }

  lemma {:induction false} AllDigitsLeading(s: string)
    requires forall i :: 0 <= i < |s| ==> IsDigit(s[i])
    ensures LeadingDigits(s) == s
  {
    if |s| > 0 {
      AllDigitsLeading(s[1..]);
      assert [s[0]] + s[1..] == s;
    }
  }

  /** A run of digits parses to its decimal value. */
  lemma ParseDigits(s: string)
    requires |s| > 0 && forall i :: 0 <= i < |s| ==> IsDigit(s[i])
    ensures ParseInt(s) == Some(DigitsValue(0, s))
  {
    assert !IsWhiteSpace(s[0]);
    assert TrimStart(s) == s;
    assert UnsignedPart(s) == s;
    AllDigitsLeading(s);
  }

  lemma TwoDigits(s: string)
    requires |s| == 2 && IsDigit(s[0]) && IsDigit(s[1])
    ensures ParseInt(s) == Some(10 * DigitValue(s[0]) + DigitValue(s[1]))
  {
    assert forall i :: 0 <= i < |s| ==> IsDigit(s[i]);
    ParseDigits(s);
    TwoDigitsValue(s);
  }

  lemma TwoDigitsValue(s: string)
    requires |s| == 2
    ensures DigitsValue(0, s) == 10 * DigitValue(s[0]) + DigitValue(s[1])
  {
    var t := s[1..];
    assert DigitsValue(0, s) == DigitsValue(DigitValue(s[0]), t);
    assert DigitsValue(DigitValue(s[0]), t) == DigitsValue(10 * DigitValue(s[0]) + DigitValue(t[0]), t[1..]);
    assert t[1..] == "";
  }

  lemma SplitWellFormedTime(t: string)
    requires WellFormedTime(t)
    ensures Split(t, ':') == [t[..2], t[3..]]
  {
    var hh, mm := t[..2], t[3..];
    assert t == hh + [':'] + mm;
    assert ':' !in hh && ':' !in mm;
    SplitAtSeparator(hh, ':', mm);
    SplitWithoutSeparator(mm, ':');
  }

  lemma MinutesFromParts(t: string, hh: string, mm: string, h: int, m: int)
    requires Split(t, ':') == [hh, mm] && ParseInt(hh) == Some(h) && ParseInt(mm) == Some(m)
    ensures TimeToMinutes(t) == Some(60 * h + m)
  {
    var parts := Split(t, ':');
    assert parts[0] == hh && parts[1] == mm && |parts| == 2;
    assert ParseInt(parts[0]) == Some(h);
    assert ParseInt(parts[1]) == Some(m);
  }

  /** `timeToMinutes('HH:MM')` is `60 * HH + MM`. */
  lemma WellFormedTimeMinutes(t: string)
    requires WellFormedTime(t)
    ensures TimeToMinutes(t) == Some(60 * (10 * DigitValue(t[0]) + DigitValue(t[1])) + 10 * DigitValue(t[3]) + DigitValue(t[4]))
  {
    var hh, mm := t[..2], t[3..];
    SplitWellFormedTime(t);
    assert hh[0] == t[0] && hh[1] == t[1] && mm[0] == t[3] && mm[1] == t[4];
    TwoDigits(hh);
    TwoDigits(mm);
    MinutesFromParts(t, hh, mm, 10 * DigitValue(t[0]) + DigitValue(t[1]), 10 * DigitValue(t[3]) + DigitValue(t[4]));
  }

  /** Digits followed by something that is not a digit: the digits are the
      longest digit prefix. */
  lemma {:induction false} LeadingDigitsOfPrefix(ds: string, rest: string)
    requires forall i :: 0 <= i < |ds| ==> IsDigit(ds[i])
    requires |rest| == 0 || !IsDigit(rest[0])
    ensures LeadingDigits(ds + rest) == ds
  {
    if |ds| > 0 {
      assert (ds + rest)[1..] == ds[1..] + rest;
      LeadingDigitsOfPrefix(ds[1..], rest);
      assert [ds[0]] + ds[1..] == ds;
    } else {
      assert ds + rest == rest;
    }
  }

  /** `parseInt` reads the leading digits and ignores whatever follows them:
      `parseInt('10abc') == 10`. */
  lemma ParseIntReadsLeadingDigits(ds: string, rest: string)
    requires |ds| > 0 && forall i :: 0 <= i < |ds| ==> IsDigit(ds[i])
    requires |rest| == 0 || !IsDigit(rest[0])
    ensures ParseInt(ds + rest) == Some(DigitsValue(0, ds))
  {
    var t := ds + rest;
    assert t[0] == ds[0];
    assert TrimStart(t) == t;
    assert UnsignedPart(t) == t;
    LeadingDigitsOfPrefix(ds, rest);
  }

  /** With a leading '-' the value is negated: `parseInt('-7:') == -7`. */
  lemma ParseIntReadsMinus(ds: string, rest: string)
    requires |ds| > 0 && forall i :: 0 <= i < |ds| ==> IsDigit(ds[i])
    requires |rest| == 0 || !IsDigit(rest[0])
    ensures ParseInt(['-'] + (ds + rest)) == Some(-DigitsValue(0, ds))
  {
    var t := ds + rest;
    var n := ['-'] + t;
    assert n[0] == '-' && !IsWhiteSpace('-');
    assert TrimStart(n) == n;
    assert n[1..] == t;
    assert UnsignedPart(n) == t;
    LeadingDigitsOfPrefix(ds, rest);
    NegativeFromParts(n, ds);
  }

  lemma NegativeFromParts(n: string, ds: string)
    requires |TrimStart(n)| > 0 && TrimStart(n)[0] == '-'
    requires LeadingDigits(UnsignedPart(TrimStart(n))) == ds && |ds| > 0
    ensures ParseInt(n) == Some(-DigitsValue(0, ds))
  {
  }

  /** `timeToMinutes` reads the hours before the first ':' and the minutes up
      to the next one; anything after a second ':' is ignored. */
  lemma TimeToMinutesOfParts(hh: string, mm: string, rest: string)
    requires ':' !in hh && ':' !in mm
    requires |rest| == 0 || rest[0] == ':'
    ensures TimeToMinutes(hh + ":" + mm + rest) ==
              if ParseInt(hh).Some? && ParseInt(mm).Some? then Some(60 * ParseInt(hh).value + ParseInt(mm).value)
              else None
  {
    var t := hh + ":" + mm + rest;
    assert t == hh + [':'] + (mm + rest);
    SplitAtSeparator(hh, ':', mm + rest);
    if |rest| == 0 {
      assert mm + rest == mm;
      SplitWithoutSeparator(mm, ':');
    } else {
      assert mm + rest == mm + [':'] + rest[1..];
      SplitAtSeparator(mm, ':', rest[1..]);
    }
    var parts := Split(t, ':');
    assert |parts| >= 2 && parts[0] == hh && parts[1] == mm;
  }

  /** A time without ':' has no minutes and is reported as NaN. */
  lemma NoColonIsNaN(time: string)
    requires ':' !in time
    ensures TimeToMinutes(time) == None
  {
    SplitWithoutSeparator(time, ':');
  }

  /** Inputs that are reported as NaN: no ':' at all, and hours or minutes
      without a digit. */
  lemma UnparsableTimes()
    ensures TimeToMinutes("") == None
    ensures TimeToMinutes("1030") == None
    ensures TimeToMinutes("ab:30") == None
    ensures TimeToMinutes("10:") == None
  {
    SplitAtSeparator("ab", ':', "30");
    assert "ab" + [':'] + "30" == "ab:30";
    assert LeadingDigits("ab") == "";
    SplitAtSeparator("10", ':', "");
    assert "10" + [':'] + "" == "10:";
    assert "1030"[0] != ':' && "1030"[1] != ':' && "1030"[2] != ':' && "1030"[3] != ':';
  }

  // ---------------------------------------------------------------------------
  // Slots and the overlap test
  // ---------------------------------------------------------------------------

  datatype Slot = Slot(id: string, start: string, end: string)

  /** Minute `t` lies in the half-open interval [from, to). */
  predicate InInterval(t: int, from: int, to: int)
  {
    from <= t < to
  }

  /** The test the screen uses for two intervals [start, end) and [s, e). */
  predicate HalfOpenClash(start: int, end: int, s: int, e: int)
  {
    !(end <= s || start >= e)
  }

  /** For non-empty intervals the test holds exactly when some minute lies in
      both; so back-to-back intervals never clash. */
  lemma HalfOpenClashIffSharedMinute(start: int, end: int, s: int, e: int)
    requires start < end && s < e
    ensures HalfOpenClash(start, end, s, e) <==> exists t :: InInterval(t, start, end) && InInterval(t, s, e)
  {
    if HalfOpenClash(start, end, s, e) {
      var t := if start < s then s else start;
      assert InInterval(t, start, end) && InInterval(t, s, e);
    }
  }

  lemma HalfOpenClashSymmetric(start: int, end: int, s: int, e: int)
    ensures HalfOpenClash(start, end, s, e) <==> HalfOpenClash(s, e, start, end)
  {
  }

  /** The minutes of a slot, when both its ends parse. */
  predicate Parses(slot: Slot)
  {
    TimeToMinutes(slot.start).Some? && TimeToMinutes(slot.end).Some?
  }

  /** The existing slot's times parse and its interval clashes with [startMin, endMin). */
  predicate ClashesWith(startMin: int, endMin: int, slot: Slot)
  {
    && Parses(slot)
    && HalfOpenClash(startMin, endMin, TimeToMinutes(slot.start).value, TimeToMinutes(slot.end).value)
  }

  /** `hasOverlap(slots, start, end)`: an unparsable new slot counts as
      overlapping; otherwise some existing slot whose times parse clashes with
      it. Existing slots that do not parse are skipped. */
  function HasOverlap(slots: seq<Slot>, start: string, end: string): (r: bool)
    ensures TimeToMinutes(start).None? || TimeToMinutes(end).None? ==> r
    ensures TimeToMinutes(start).Some? && TimeToMinutes(end).Some? ==>
              (r <==> exists i :: 0 <= i < |slots| &&
                         ClashesWith(TimeToMinutes(start).value, TimeToMinutes(end).value, slots[i]))
  {
    var startMin, endMin := TimeToMinutes(start), TimeToMinutes(end);
    if startMin.None? || endMin.None? then true
    else AnyClash(slots, startMin.value, endMin.value)
  }

  /** `slots.some(...)` of `hasOverlap`, written as a recursion over the list. */
  function AnyClash(slots: seq<Slot>, startMin: int, endMin: int): (r: bool)
    ensures r <==> exists i :: 0 <= i < |slots| && ClashesWith(startMin, endMin, slots[i])
  {
    if |slots| == 0 then false
    else
      var s, e := TimeToMinutes(slots[0].start), TimeToMinutes(slots[0].end);
      var here := s.Some? && e.Some? && HalfOpenClash(startMin, endMin, s.value, e.value);
      assert here <==> ClashesWith(startMin, endMin, slots[0]);
      var later := AnyClash(slots[1..], startMin, endMin);
      assert later ==> exists i :: 0 <= i < |slots| && ClashesWith(startMin, endMin, slots[i]) by {
        if later {
          var j :| 0 <= j < |slots[1..]| && ClashesWith(startMin, endMin, slots[1..][j]);
          assert slots[1..][j] == slots[j + 1];
        }
      }
      assert (exists i :: 0 <= i < |slots| && ClashesWith(startMin, endMin, slots[i])) ==> here || later by {
        if exists i :: 0 <= i < |slots| && ClashesWith(startMin, endMin, slots[i]) {
          var i :| 0 <= i < |slots| && ClashesWith(startMin, endMin, slots[i]);
          if i > 0 {
            assert slots[1..][i - 1] == slots[i];
          }
        }
      }
      here || later
  }

  /** Against a single slot whose times parse, the overlap test is the
      half-open test on the minutes: back-to-back slots (the new one ends where
      the old one starts, or starts where it ends) do not overlap, while a slot
      nested in the other or crossing one of its ends does. */
  lemma OneSlotOverlap(slot: Slot, start: string, end: string, a: int, b: int, s: int, e: int)
    requires TimeToMinutes(start) == Some(a) && TimeToMinutes(end) == Some(b)
    requires TimeToMinutes(slot.start) == Some(s) && TimeToMinutes(slot.end) == Some(e)
    requires a < b && s < e
    ensures HasOverlap([slot], start, end) == HalfOpenClash(a, b, s, e)
    ensures b == s || a == e ==> !HasOverlap([slot], start, end)
    ensures (s <= a && b <= e) || (a <= s && e <= b) ==> HasOverlap([slot], start, end)
    ensures a < s < b || a < e < b ==> HasOverlap([slot], start, end)
  {
    assert [slot][0] == slot;
  }

  /** An existing slot whose times do not parse never causes an overlap. */
  lemma UnparsableSlotSkipped(slot: Slot, start: string, end: string)
    requires TimeToMinutes(start).Some? && TimeToMinutes(end).Some?
    requires !Parses(slot)
    ensures !HasOverlap([slot], start, end)
  {
    assert [slot][0] == slot;
  }

  /** A concrete reading: '10:00' is minute 600. */
  lemma ReadingExample()
    ensures TimeToMinutes("10:00") == Some(600)
  {
    assert DigitValue('1') == 1 && DigitValue('0') == 0;
    WellFormedTimeMinutes("10:00");
  }
}
